=== FILE: README.md ===
# Instagram media downloader: a Dafny model of its core

The web application takes an Instagram link and a content type: post, story, reel or profile.

- The download route (`app/api/download/route.ts`) asks a third-party Instagram API for the media behind the link. It turns whatever JSON comes back into a list of media records. Each record has a url, a kind (image or video), a quality, a generated file name, dimensions and a cover url. The route answers `POST` with that list and `PUT` with a zip archive of selected records.
- The proxy route (`app/api/proxy/route.ts`) fetches a CDN url on the server and returns the bytes.
- On the page:
  - the download form (`DownloadForm.tsx`) gates submits with a debounce and a few url checks;
  - the preview (`MediaPreview.tsx`) lets the user select records and download them, as one zip or one by one;
  - the FAQ page filters, counts and expands its questions and publishes a FAQPage JSON-LD;
  - `useAppTranslation` picks the dictionary from the first path segment.

The model is written in JavaScript's own terms:

- JSON values carry JS truthiness and `undefined` (`Json.Missing`).
- Optional chaining, `||` chains and `for..of` iteration (which throws on a non-iterable) are modelled as written.
- The upstream API is a function parameter `api: Call -> Reply`. Every run records the trace of calls it made, so "no call is made" is a statement about that trace.
- `Date.now()` is a parameter.
- Thrown errors are a `Failure` value that the `POST` handler turns into a status and a message.

One module per source component:

| file | module |
|---|---|
| `base.dfy` | Option, Result and bytes |
| `text.dfy` | the string primitives the code uses: `startsWith`, `includes`, `trim`, `toLowerCase`, `split`, decimal rendering |
| `json.dfy` | JSON values, truthiness, optional chaining, iteration, template-literal display |
| `url_scan.dfy` | the url regular expressions |
| `probe.dfy` | the `a?.b || c?.d || ...` probes over API replies |
| `normalize.dfy` | the per-shape media normalisers |
| `download_route.dfy` | `getInstagramMedia`, `POST`, `PUT` and `createZipFromMedia` |
| `proxy_route.dfy` | proxy `GET` and `POST` |
| `media_preview.dfy`, `download_form.dfy`, `faq.dfy`, `translation.dfy` | the page components |

The central property is that every record the route hands out has a truthy url and a file name starting with `instagram-`. Further properties:

- Records of a walk are numbered consecutively from 1. Empty items take no number.
- A request is refused before any upstream call when the API key, the url or the username is missing.
- Both proxy handlers pass the upstream bytes through unchanged and never answer with an empty body.
- The preview downloads exactly the selected records, in order. The title the preview reads out of a highlight file name is the one the route put in.

## Model

| member | source | states |
|---|---|---|
| UrlScan.MatchAtIsCapture | app/api/download/route.ts:38-41 | at a position, the hand-written matcher for a shortcode or username pattern succeeds exactly when the regular expression's capture group matches there, and it returns that greedy capture |
| UrlScan.SearchIsLeftmostCapture | app/api/download/route.ts:44-46 | `url.match(pattern)` returns the capture at the leftmost position where the pattern matches, and null when it matches nowhere |
| UrlScan.ExtractShortcode | app/api/download/route.ts:36-50 | the shortcode is a non-empty run of `[A-Za-z0-9_-]`; it comes from the first of the `/p/`, `/reel/`, `/tv/`, `/stories/<user>/` patterns that matches anywhere, and it is null exactly when none of the four matches |
| UrlScan.PostPatternWins | app/api/download/route.ts:38-46 | when the `/p/` pattern matches, it decides the shortcode, whatever the other patterns would match |
| UrlScan.CanonicalPostLink | app/api/download/route.ts:36-50 | for any code of shortcode characters, `https://www.instagram.com/p/<code>/` yields exactly that code |
| UrlScan.StoryUsername | app/api/download/route.ts:53-56 | the story owner is the segment captured at the leftmost match of `instagram.com/stories/([^/]+)`, and every leftmost capture is it; it is non-empty, without `/`, and present exactly when the pattern matches somewhere |
| UrlScan.ProfileUsername | app/api/download/route.ts:59-62 | the profile username is the segment captured at the leftmost match of `instagram.com/([^/?]+)`, and every leftmost capture is it; it is non-empty, without `/` or `?`, and present exactly when the pattern matches somewhere |
| UrlScan.SearchIsTheLeftmost | app/api/download/route.ts:54 | a search's result is a leftmost capture of its pattern, and every leftmost capture is the search's result |
| UrlScan.DirectLink | app/api/download/route.ts:54 | a literal that first occurs after a prefix lacking its first character, followed by a maximal class run, yields exactly that run |
| UrlScan.StoryLinkUsername | app/api/download/route.ts:53-56 | `https://www.instagram.com/stories/<user>`, alone or followed by a `/`, yields exactly `user` as the story owner |
| UrlScan.ProfileLinkUsername | app/api/download/route.ts:59-62 | `https://www.instagram.com/<user>`, followed by nothing, a `/` or a `?`, yields exactly `user` as the profile username |
| UrlScan.ProfileOfStoryLink | app/api/download/route.ts:59-62 | the profile extractor reads `stories` from a story link, because it takes the first segment after the host, whatever it is |
| Probe.OrChain | app/api/download/route.ts:149-162 | an `a \|\| b \|\| ...` chain is truthy exactly when some operand is; it is the first truthy operand, else the last operand |
| Probe.UserIdOf | app/api/download/route.ts:149-162 | the user id is the first truthy one of the nine probed paths; it is falsy exactly when all nine are |
| Probe.UserIdOfNonObject | app/api/download/route.ts:149-162 | a reply that is not an object never yields a user id |
| Probe.TopLevelUserIdWins | app/api/download/route.ts:149-150 | a truthy top-level `user_id` is taken before any nested one |
| Probe.FalsyPathSkipped | app/api/download/route.ts:149-162 | a falsy `data.user_id` of 0 is skipped in favour of a later `result.id` |
| Probe.StoriesList | app/api/download/route.ts:183-192 | an array reply is iterated element by element. An object reply with a truthy probe is iterated as an object, which throws. Any other reply gives no stories |
| Probe.StoriesProbe | app/api/download/route.ts:183-188 | the stories ternary takes the reply exactly when it is an array or one of the five probes is truthy, and a non-object makes every probe falsy |
| Probe.HighlightsList | app/api/download/route.ts:346-357 | the highlights are the first truthy probe, iterated when it is an array; with no truthy probe, they are the reply itself when it is an array, else none |
| Probe.HighlightsOfArray | app/api/download/route.ts:346-357 | an array reply is its own list of highlights |
| Normalize.ImagePart | app/api/download/route.ts:195-206 | an item yields an image record exactly when its first `image_versions2` candidate has a url, and the record carries that candidate's url, width and height at quality `hd` |
| Normalize.VideoPart | app/api/download/route.ts:209-227 | an item yields a video record exactly when `video_versions` is an array whose first element has a url |
| Normalize.ItemMedia | app/api/download/route.ts:192-228 | an item yields at most two records, an image before a video, each with a truthy url at quality `hd`, and an image never has a cover |
| Normalize.StoryCoverIsStandaloneImage | app/api/download/route.ts:195-227 | when a story item yields both records, the video's cover is the image's url |
| Normalize.StoryCoverWithoutImage | app/api/download/route.ts:209-227 | a first candidate without a url yields no image, yet its (falsy) url is still the video's cover |
| Normalize.Named | app/api/download/route.ts:192-228 | records are named `<base>-<n><ext>` with consecutive numbers from the starting index, in order |
| Normalize.NamedAppend | app/api/download/route.ts:192-228 | naming a concatenation names the second part from where the first part stopped |
| Normalize.ItemLoop | app/api/download/route.ts:192-228 | the walk fails exactly when some item is null or undefined; what it pushed is the named records of the items before the first such item |
| Normalize.ItemLoopWellFormed | app/api/download/route.ts:192-228 | every record of a walk has a truthy url and is named `<base>-<next+j><ext>` |
| Normalize.EmptyItemTakesNoIndex | app/api/download/route.ts:192-228 | an item with no usable media takes no number: the next item's records start at the same index |
| Normalize.ReelRecords | app/api/download/route.ts:253-288 | a null reply throws; otherwise the records are the reply's image then video records (the video's cover is the image's url), one for one, renamed `instagram-reel-<shortcode>-<ts><ext>` |
| Normalize.ReelCoverIsImage | app/api/download/route.ts:256-286 | a reel video's cover is the reel image's url when there is one, and absent otherwise |
| Normalize.PrimaryWellFormed | app/api/download/route.ts:453-512 | every record of the native post ladder is well formed under the post base |
| Normalize.CarouselShadowsSingle | app/api/download/route.ts:453-485 | a `carousel_media` array decides the records: they are numbered from 1, whatever single image or video the post also has |
| Normalize.Kept | app/api/download/route.ts:552-565 | an item is kept if and only if it is in the list and has a truthy url |
| Normalize.KeptAppend | app/api/download/route.ts:552-565 | keeping distributes over concatenation, so the kept items stay in list order |
| Normalize.GenericList | app/api/download/route.ts:516-565 | the generic array walk throws exactly when some item is null, or has a truthy url that is neither a string nor an array |
| Normalize.GenericListIsKeptIndexed | app/api/download/route.ts:516-565 | the generic records are the kept items, numbered consecutively from the start index |
| Normalize.GenericListWellFormed | app/api/download/route.ts:516-565 | every generic record has a truthy url and the post base in its name |
| Normalize.TypedVideoGetsJpgName | app/api/download/route.ts:556-561 | an item typed `video` whose url has no `.mp4` is a video named with `.jpg`: the kind reads the type but the extension reads only the url |
| Normalize.Mp4UrlIsVideo | app/api/download/route.ts:556-561 | a url containing `.mp4` gives a video named with `.mp4` |
| Normalize.SingleRecord | app/api/download/route.ts:530-537 | a truthy `url` gives one record exactly when it is a string or an array, with that url |
| Normalize.FallbackWellFormed | app/api/download/route.ts:514-576 | every record of the generic fallback is well formed under the post base |
| Normalize.PostRecords | app/api/download/route.ts:426-590 | every post record has a truthy url and a name starting with `instagram-<shortcode or content>-<ts>` |
| Normalize.NativeShapeFirst | app/api/download/route.ts:453-516 | when the native fields give records, the fallback is never consulted, whatever else the reply holds |
| Normalize.ThrowingFallbackItemGivesEmpty | app/api/download/route.ts:552-565 | an array reply with a throwing item yields no records at all, because the throw is caught around the whole fallback |
| DownloadRoute.WellFormedUnder | app/api/download/route.ts:192-228 | a record well formed under a longer `instagram-...` base is well formed under `instagram-` |
| DownloadRoute.LookupUserId | app/api/download/route.ts:134-165 | the user id is found exactly when the `user_id_by_username` call is answered with a truthy probed id; an answered reply without one is the "could not get user ID" error |
| DownloadRoute.StoryOwner | app/api/download/route.ts:106-117 | a story's owner is the stories username, else the profile username |
| DownloadRoute.StoryItems | app/api/download/route.ts:183-229 | the story records are every story's image and video records, in order, named `instagram-story-<uid>-<ts>-<n><ext>` from 1; the walk throws exactly when the reply is iterated as an object or a story is null |
| DownloadRoute.StoryRun | app/api/download/route.ts:106-231 | without a username nothing is called. The first call is the user-id lookup. Without a user id no stories call follows. A success made exactly two calls, and its records are the stories reply's |
| DownloadRoute.HighlightItems | app/api/download/route.ts:381-417 | a highlight's records are named `instagram-highlight-<title>-<ts>-<n><ext>` with consecutive numbers from the next free index |
| DownloadRoute.HighlightsWalk | app/api/download/route.ts:362-421 | one call per highlight with a truthy id, in order. The walk throws exactly when a highlight is null. Earlier records are kept, and every new record is numbered by its position in the whole list |
| DownloadRoute.ProfileRun | app/api/download/route.ts:291-424 | without a username nothing is called; without a user id only the lookup is made; all records are highlight records numbered from 1 |
| DownloadRoute.ReelRun | app/api/download/route.ts:232-289 | without a shortcode nothing is called; otherwise exactly one reel call. An answered call succeeds exactly when its body is not null, and then the records are the reel records of that body: at most two, all well formed |
| DownloadRoute.PostRun | app/api/download/route.ts:426-590 | exactly one post call, with the possibly-null shortcode. It never fails: a failed call gives no records, and an answered one gives the post records of its body. All records are well formed |
| DownloadRoute.GetInstagramMedia | app/api/download/route.ts:99-106 | without an API key nothing is called; every returned record is well formed; an unknown type is treated as a post |
| DownloadRoute.ErrorStatus | app/api/download/route.ts:637-647 | a thrown error answers with the upstream status when it has a non-zero one, else 500 |
| DownloadRoute.Respond | app/api/download/route.ts:609-647 | no media gives 404 and "No media found"; a thrown error gives its status and message, with "Too many requests" for an upstream 429. Otherwise 200 with the media, its count, the multiple flag, and the download url and file name of the first record |
| DownloadRoute.DownloadPost | app/api/download/route.ts:592-648 | a missing url or type gives 400 before any call; `profile` gives 400 "coming soon" before any call; anything else is the response to the extraction run |
| DownloadRoute.PostStatuses | app/api/download/route.ts:592-648 | `POST` answers 200, 400, 404 or 500, or an upstream error's own status |
| DownloadRoute.ProfileUnreachable | app/api/download/route.ts:602-607 | a profile request makes no upstream call and is refused with 400 |
| DownloadRoute.CanonicalPostCall | app/api/download/route.ts:426-449 | a canonical post link leads to exactly one post call, with its own shortcode |
| DownloadRoute.NoUserIdNoStoriesCall | app/api/download/route.ts:134-165 | a story whose owner has no user id makes only the lookup call and answers 500 |
| DownloadRoute.CreateZip | app/api/download/route.ts:74-91 | the archive holds one entry per item whose download succeeded, in order, at most one per item |
| DownloadRoute.ZipEntriesBound | app/api/download/route.ts:74-91 | an archive never has more entries than items |
| DownloadRoute.EntryNamesDistinct | app/api/download/route.ts:80-83 | with a title, entries of different positions get different names |
| DownloadRoute.DownloadPut | app/api/download/route.ts:651-682 | a missing or empty item list gives 400. A non-empty list gives the archive, named after the title and the time and holding the entries of the items, exactly when the title is a valid header value; otherwise 500 |
| DownloadRoute.ArchiveNameSafe | app/api/download/route.ts:664-671 | the archive name is a valid `Content-Disposition` value exactly when the title is |
| DownloadRoute.SkippedDownloadKeepsNumbering | app/api/download/route.ts:74-91 | a failed download leaves a gap in the numbering: entries stay numbered by their position in the request |
| ProxyRoute.QueryGet | app/api/proxy/route.ts:5 | a query parameter is present exactly when some pair has that name, and its value is the first such pair's |
| ProxyRoute.Relay | app/api/proxy/route.ts:17-61 | bytes are returned exactly when the fetch succeeds with a 2xx status and a non-empty body, and they are the upstream bytes. A non-2xx status is passed on. An empty body is 400. A rejected fetch is 500 |
| ProxyRoute.ProxyGet | app/api/proxy/route.ts:3-62 | a missing or empty `url` is 400, and so is one not starting with `http`. Bytes come back exactly for a successful non-empty fetch of the first `url` parameter, with the display headers. For an `http` url, a failed fetch is answered as the shared relay answers it: a non-2xx status is passed on, an empty body is 400 and a rejected fetch is 500 |
| ProxyRoute.ProxyPost | app/api/proxy/route.ts:64-123 | a falsy `url` is 400; a truthy non-string `url` throws into 500; one not starting with `http` is 400. Bytes come back, with the download headers, exactly for a successful non-empty fetch whose attachment name is a valid header value; an invalid name is 500. For an `http` url whose fetch fails, the answer is the shared relay's: a non-2xx status is passed on, an empty body is 400 and a rejected fetch is 500 |
| ProxyRoute.NeverEmpty | app/api/proxy/route.ts:101-103 | neither handler ever answers with an empty body |
| ProxyRoute.GetAndPostAgree | app/api/proxy/route.ts:3-123 | for the same url, POST succeeds exactly when GET does and its attachment name is a valid header value, and both pass the same bytes |
| ProxyRoute.WideFilenameFailsPost | app/api/proxy/route.ts:108-122 | a file name with a character above U+00FF turns a download that GET serves into a 500 |
| ProxyRoute.DefaultNameIsSafe | app/api/proxy/route.ts:113 | the default attachment name `download` is always a valid header value |
| ProxyRoute.FirstUrlParameterWins | app/api/proxy/route.ts:5 | with a repeated `url` parameter, the first one is fetched |
| ProxyRoute.DefaultAttachmentName | app/api/proxy/route.ts:110-113 | without a file name, the attachment is called `download` |
| MediaPreview.Toggle | app/components/MediaPreview.tsx:29-37 | toggling flips the position's membership and leaves every other position as it was |
| MediaPreview.ToggleTwice | app/components/MediaPreview.tsx:29-37 | toggling a position twice restores the selection |
| MediaPreview.SelectAll | app/components/MediaPreview.tsx:39-41 | select-all selects exactly the positions below the number of records |
| MediaPreview.Chosen | app/components/MediaPreview.tsx:50 | the chosen positions are the selected ones in range, strictly increasing |
| MediaPreview.Picked | app/components/MediaPreview.tsx:50 | the records to download are the records at the chosen positions, in list order |
| MediaPreview.ChosenCount | app/components/MediaPreview.tsx:50 | every selected position in range is chosen once |
| MediaPreview.PickedCount | app/components/MediaPreview.tsx:50 | when the selection lies within the list, one record is downloaded per selected position |
| MediaPreview.PickAll | app/components/MediaPreview.tsx:39-50 | after select-all, the whole list is downloaded, in order |
| MediaPreview.TitleField | app/components/MediaPreview.tsx:57 | the zip title is the third `-`-separated field of the first name, present exactly when there is one |
| MediaPreview.PlanFor | app/components/MediaPreview.tsx:47-84 | nothing happens without a selection. Several records starting with a highlight name are zipped, titled from the first name. Anything else is downloaded one by one. The items are the picked records |
| MediaPreview.HighlightTitleRoundTrip | app/components/MediaPreview.tsx:57 | for a highlight title without `-`, the title read back from the route's file name is the title the route wrote |
| MediaPreview.Individually | app/components/MediaPreview.tsx:84-109 | one-by-one downloads stop at the first failure; all succeed exactly when every item's request does |
| MediaPreview.AfterDownload | app/components/MediaPreview.tsx:47-120 | the selection is cleared only after a complete success: when the zip succeeds, or when every single download does |
| MediaPreview.Run | app/components/MediaPreview.tsx:29-45 | selecting, clearing and downloading keep the selection within the list |
| MediaPreview.PickedMatchesCount | app/components/MediaPreview.tsx:122 | after any run of actions, the number of downloaded records equals the selected count shown |
| DownloadForm.ClickType | app/components/DownloadForm.tsx:257 | clicking a disabled type keeps the selection; clicking another type selects it |
| DownloadForm.AfterClicks | app/components/DownloadForm.tsx:39-72 | no run of clicks ever selects the disabled profile type |
| DownloadForm.EnabledReachable | app/components/DownloadForm.tsx:257 | every enabled type can be selected |
| DownloadForm.Submit | app/components/DownloadForm.tsx:82-116 | a submit within 1.2 seconds of the last accepted one is dropped and changes nothing. Otherwise the window restarts. A request is sent exactly when the trimmed url is non-empty, contains `instagram.com` and the type is not profile. It carries the trimmed url and the type. Of the refusals, the url checks come first: a blank url, then a url without `instagram.com`, then the profile type |
| DownloadForm.DebounceWindow | app/components/DownloadForm.tsx:86-91 | after a submit passes the debounce at `t`, the next one is dropped exactly when it comes before `t + 1200` |
| DownloadForm.RefusedSubmitRestartsWindow | app/components/DownloadForm.tsx:86-96 | a blank submit still restarts the window |
| DownloadForm.SentRequestPassesRouteChecks | app/components/DownloadForm.tsx:113-116 | a request the form sends is never refused by the route's field and profile checks |
| DownloadForm.OnResponse | app/components/DownloadForm.tsx:118-123 | a successful answer with media opens the preview with exactly that media; anything else leaves the preview alone; processing ends either way |
| DownloadForm.PreviewShowsRouteMedia | app/components/DownloadForm.tsx:113-123 | the preview shows exactly the media the route found for the sent request |
| Faq.Filtered | app/faq/page.tsx:169-174 | the filter keeps exactly the items of the category (or all) whose question or answer contains the search term, ignoring case |
| Faq.FilteredAppend | app/faq/page.tsx:169-174 | filtering keeps the list's order |
| Faq.FilteredOne | app/faq/page.tsx:169-174 | a single item is kept exactly when the filter shows it; with FilteredAppend this fixes the filtered list |
| Faq.EmptySearchShowsAll | app/faq/page.tsx:169-174 | with `all` and no search term, every item is shown |
| Faq.SearchIgnoresCase | app/faq/page.tsx:171-172 | a search term and its lower-cased form show the same items |
| Faq.CategoryCount | app/faq/page.tsx:141-148 | the `all` count is the number of items, and no count exceeds it |
| Faq.CountMatchesFilter | app/faq/page.tsx:141-174 | a category's count is the number of items its filter shows with no search term |
| Faq.CountsAddUp | app/faq/page.tsx:141-148 | when every item has one of the five categories, their counts add up to the `all` count |
| Faq.ToggleExpanded | app/faq/page.tsx:176-182 | toggling expands a collapsed position and collapses an expanded one, touching no other position and listing none twice |
| Faq.ToggleExpandedTwice | app/faq/page.tsx:176-182 | toggling twice restores the expanded positions, and the exact list when the position started collapsed |
| Faq.ExpansionFollowsPosition | app/faq/page.tsx:252-264 | expansion is keyed by position in the filtered list, so when the search hides an item, the open position shows another item's answer |
| Faq.ClearFiltersShowsAll | app/faq/page.tsx:279-282 | after clearing the filters, every item is shown in order |
| Faq.BreakLines | app/faq/page.tsx:159 | the JSON-LD answer has no line breaks left, and a text without them is unchanged |
| Faq.BreakLinesAt | app/faq/page.tsx:159 | every line break becomes `<br/>`, and the text on each side of it is replaced on its own |
| Faq.BreakLinesLength | app/faq/page.tsx:159 | each line break grows the text by four characters |
| Faq.Schema | app/faq/page.tsx:151-162 | one Question per item, in order, named by the question, whose answer is the item's answer with every line break turned into `<br/>` |
| Translation.PathLang | app/components/useAppTranslation.ts:10 | the language is the second `/`-field of the path, absent without a path or without a second field |
| Translation.FirstSegment | app/components/useAppTranslation.ts:10 | a path `/<segment>` or `/<segment>/...` names its first segment as the language |
| Translation.DictionaryFor | app/components/useAppTranslation.ts:11-13 | `zh` and `hi` choose their dictionaries; every other language, and none, chooses English |
| Translation.Translate | app/components/useAppTranslation.ts:14 | a key with a non-empty text reads that text; any other key reads as itself |
| Translation.UseAppTranslation | app/components/useAppTranslation.ts:10-15 | the hook returns the raw language segment and the dictionary chosen from it |
| Translation.UnsupportedLanguage | app/components/useAppTranslation.ts:10-14 | under `/fr` the language stays `fr` but the English texts are read |
| Translation.ChinesePath | app/components/useAppTranslation.ts:10-14 | under `/zh` the Chinese texts are read, and a key missing there shows as itself |

## Left out

- The network is not modelled.
  - Upstream calls and CDN fetches are function parameters, so a reply is whatever the parameter says.
  - The model has no concurrency, timeouts or retries.
  - The waits between calls are not modelled (`route.ts` lines 128, 168 and 419). They only delay calls.
  - Redis is assumed available (`route.ts` lines 119-126). A failing `redis.get` or `redis.set` would answer 500 before any upstream call. The lock's wait loop has no bound while another request keeps setting the key. Neither is modelled: `DownloadRoute.StoryRun` makes the user-id lookup as its first call.
- `Date.now()` is a parameter. The server's time and the browser's time are separate parameters.
- The zip encoding itself is not modelled. The archive is its list of (name, bytes) entries. The zip response headers are not modelled, except that the `Content-Disposition` value must be a valid header value (see below).
- Duplicate entry names are not modelled. Without a title, two records with the same file name give two entries of that name, and the model keeps both.
- Request bodies arrive already parsed.
  - `url`, `type` and `highlightTitle` are strings, with `""` standing for missing. A non-string value and unparsable JSON (both answered with 500) are not modelled.
  - `PUT` items are media records. A missing or non-array `mediaItems` is `None`.
- `GET /api/download` (a constant 405) is not modelled. Neither are the contact route or the other pages.
- Numbers in replies are integers. JS number formatting of non-integral or exponent-form values in file names is not modelled.
- Strings are sequences of characters. UTF-16 surrogate pairs are not modelled, and lower-casing covers only ASCII letters.
- The story handler rewrites `stories/` urls at line 114. The rewritten url is used only for logging, so the model ignores it.
- Console logging, toasts, animations and rendering are not modelled.
- Header values are checked as the Fetch `Headers` object checks them: a character above U+00FF, or a NUL, CR or LF, makes the response constructor throw.
  - The upstream `content-type` is passed on unchecked. It comes out of the fetched response's own `Headers`, which have already checked it.
  - The trimming of whitespace at the ends of a value is not modelled. Both `Content-Disposition` values start with a letter and end with a quote, so trimming never changes them.
- The download form's DOM gating in front of `handleSubmit` is not modelled: the `required` url input and the submit button disabled for a blank url (`DownloadForm.tsx` lines 218-232 and 284-285). `DownloadForm.Submit` and `DownloadForm.RefusedSubmitRestartsWindow` describe the handler itself, which a blank url reaches only when the handler is called directly.
- MediaPreview:
  - the anchor-click file saving and object urls are not modelled;
  - `previewItem` is declared but never read or set, so it has nothing to model;
  - the `isDownloading` flag is not modelled. It disables only the Download button while a download runs.
  - Downloads are modelled as one atomic step, so interleaving during a download is not modelled. While a download runs, the checkboxes and Select/Deselect All stay active (`MediaPreview.tsx` lines 141-152 and 180-183). A toggle made then is wiped by the clear that follows a complete success (line 112). The set that is downloaded is the one read when the download started.
- The locale dictionaries' contents are parameters.
- DownloadRoute.HighlightItems: states the naming and well-formedness of a highlight's records, but not which item produced which record. That is `Normalize.ItemLoop`'s contract, which the function uses.
- DownloadRoute.ProfileRun: states the errors, well-formedness and numbering of a profile run, but not its exact call trace. `HighlightsWalk` states the trace of the highlight calls.
- DownloadRoute.GetInstagramMedia: the story, reel and profile branches are stated by `StoryRun`, `ReelRun` and `ProfileRun`. The function's own contract states only the shared properties.
- Normalize.PostRecords: its contract states well-formedness. The choice between the native ladder and the fallback is stated by `NativeShapeFirst` and `ThrowingFallbackItemGivesEmpty`, not as one if-and-only-if.

=== FILE: base.dfy ===
/** Small shared vocabulary: optional values, results carrying an error, and bytes. */
module Base {

  /** A value that may be absent (JavaScript `null`/`undefined` where the source returns one). */
  datatype Option<+T> = None | Some(value: T) {

    /** Returns the wrapped value, or `default` when there is none. */
    function GetOr(default: T): T {
      match this
      case Some(v) => v
      case None => default
    }
  }

  /** The outcome of a step that can throw: `Err` carries what was thrown. */
  datatype Result<+T, +E> = Ok(value: T) | Err(error: E)

  /** One octet of a response body. */
  newtype byte = b: int | 0 <= b < 256
}

=== FILE: download_form.dfy ===
/**
 * The download form: the content-type picker with its disabled entry, the
 * submit gate (a 1.2-second debounce, then the url and type checks) and
 * what a response does to the form.
 */
module DownloadForm {
  import opened Base
  import opened Text
  import opened Json
  import opened Normalize
  import DownloadRoute

  /** The four content types the form offers. */
  datatype ContentType = Post | Story | Reel | Profile

  /** The `type` sent to the download route. */
  function TypeId(t: ContentType): (r: string)
    ensures r != ""
    ensures r == "profile" <==> t == Profile
  {
    match t
    case Post => "post"
    case Story => "story"
    case Reel => "reel"
    case Profile => "profile"
  }

  /** Profiles are shown but disabled. */
  predicate Disabled(t: ContentType) {
    t == Profile
  }

  /** `onClick={() => !type.disabled && setSelectedType(type.id)}` */
  function ClickType(selected: ContentType, t: ContentType): (r: ContentType)
    ensures Disabled(t) ==> r == selected
    ensures !Disabled(t) ==> r == t
  {
    if Disabled(t) then selected else t
  }

  /** The selection after a run of clicks from the initial `post`. */
  function AfterClicks(clicks: seq<ContentType>): (r: ContentType)
    ensures !Disabled(r)
    ensures |clicks| > 0 && !Disabled(clicks[|clicks| - 1]) ==> r == clicks[|clicks| - 1]
    decreases |clicks|
  {
    if |clicks| == 0 then Post
    else ClickType(AfterClicks(clicks[..|clicks| - 1]), clicks[|clicks| - 1])
  }

  /** Every enabled type can be selected. */
  lemma EnabledReachable(t: ContentType)
    requires !Disabled(t)
    ensures AfterClicks([t]) == t
  {
    assert [t][..0] == [];
  }

  /** The form's state: the url field, the selected type, the debounce timestamp, and the preview. */
  datatype Form = Form(
    url: string,
    selected: ContentType,
    lastRequest: int,
    processing: bool,
    preview: Option<seq<Media>>)

  /** The form as the page first shows it. */
  const Initial := Form("", Post, 0, false, None)

  /** What a submit does. */
  datatype Verdict =
    | TooSoon
    | Blank
    | NotInstagram
    | ProfileDisabled
    | Send(url: string, kind: string)

  /** `now - lastRequestTime.current < 1200` */
  predicate WithinWindow(last: int, now: int) {
    now - last < 1200
  }

  /**
   * `handleSubmit` at time `now`: a submit inside the 1.2-second window is
   * dropped and leaves the form alone; otherwise the window restarts before
   * the checks, so a refused submit restarts it too. A request carries the
   * trimmed url and the selected type.
   */
  function Submit(f: Form, now: int): (r: (Form, Verdict))
    ensures r.1 == TooSoon <==> WithinWindow(f.lastRequest, now)
    ensures r.1 == TooSoon ==> r.0 == f
    ensures r.1 != TooSoon ==> r.0.lastRequest == now && r.0.url == f.url && r.0.selected == f.selected && r.0.preview == f.preview
    ensures r.1.Send? <==>
              && !WithinWindow(f.lastRequest, now)
              && Trim(f.url) != ""
              && Includes(f.url, "instagram.com")
              && f.selected != Profile
    ensures r.1.Send? ==> r.1.url == Trim(f.url) && r.1.kind == TypeId(f.selected) && r.0.processing
    ensures r.1 == Blank <==> !WithinWindow(f.lastRequest, now) && Trim(f.url) == ""
    ensures r.1 == NotInstagram <==> !WithinWindow(f.lastRequest, now) && Trim(f.url) != "" && !Includes(f.url, "instagram.com")
    ensures r.1 == ProfileDisabled <==>
              !WithinWindow(f.lastRequest, now) && Trim(f.url) != "" && Includes(f.url, "instagram.com") && f.selected == Profile
  {
    if WithinWindow(f.lastRequest, now) then (f, TooSoon)
    else
      var g := f.(lastRequest := now);
      if Trim(f.url) == "" then (g, Blank)
      else if !Includes(f.url, "instagram.com") then (g, NotInstagram)
      else if f.selected == Profile then (g, ProfileDisabled)
      else (g.(processing := true), Send(Trim(f.url), TypeId(f.selected)))
  }

  /** After any submit that passes the debounce at `t`, one before `t + 1200` is dropped and one at `t + 1200` is not. */
  lemma DebounceWindow(f: Form, t: int, later: int)
    requires Submit(f, t).1 != TooSoon
    ensures Submit(Submit(f, t).0, later).1 == TooSoon <==> later < t + 1200
  {
  }

  /** A blank url still restarts the window: a retry a second later is dropped. */
  lemma RefusedSubmitRestartsWindow(f: Form, t: int)
    requires !WithinWindow(f.lastRequest, t) && Trim(f.url) == ""
    ensures Submit(Submit(f, t).0, t + 1000).1 == TooSoon
  {
  }

  /** On a fresh page a submit from 1200 on passes the debounce and stops at the empty url. */
  lemma FreshFormSubmitIsBlank(now: int)
    requires now >= 1200
    ensures Submit(Initial, now).1 == Blank
  {
    assert Trim("") == "";
  }

  /**
   * A request the form sends is never refused by the download route's own
   * checks: its url is non-empty and its type is neither missing nor `profile`.
   */
  lemma SentRequestPassesRouteChecks(f: Form, now: int, apiKey: string, ts: nat, serverNow: nat, api: DownloadRoute.Call -> DownloadRoute.Reply)
    requires Submit(f, now).1.Send?
    ensures var v := Submit(f, now).1;
            DownloadRoute.DownloadPost(v.url, v.kind, apiKey, ts, serverNow, api)
            == DownloadRoute.Respond(v.url, v.kind, serverNow, DownloadRoute.GetInstagramMedia(v.url, v.kind, apiKey, ts, api))
  {
  }

  /**
   * The form after a response: a 2xx answer with `success` and a non-empty
   * media list opens the preview with exactly that list; anything else
   * leaves the preview as it was.
   */
  function OnResponse(f: Form, resp: DownloadRoute.Response): (r: Form)
    ensures !r.processing
    ensures r.url == f.url && r.selected == f.selected && r.lastRequest == f.lastRequest
    ensures r.preview != f.preview ==> resp.body.Found? && r.preview == Some(resp.body.data.media)
    ensures 200 <= resp.status < 300 && resp.body.Found? && |resp.body.data.media| > 0 ==> r.preview == Some(resp.body.data.media)
  {
    if 200 <= resp.status < 300 && resp.body.Found? && |resp.body.data.media| > 0 then
      f.(processing := false, preview := Some(resp.body.data.media))
    else
      f.(processing := false)
  }

  /** Whatever the route found for a sent request is what the preview shows. */
  lemma PreviewShowsRouteMedia(f: Form, now: int, apiKey: string, ts: nat, serverNow: nat, api: DownloadRoute.Call -> DownloadRoute.Reply)
    requires Submit(f, now).1.Send?
    ensures var v := Submit(f, now).1;
            var run := DownloadRoute.GetInstagramMedia(v.url, v.kind, apiKey, ts, api);
            var h := DownloadRoute.DownloadPost(v.url, v.kind, apiKey, ts, serverNow, api);
            run.outcome.Ok? && |run.outcome.value| > 0 ==>
              OnResponse(Submit(f, now).0, h.response).preview == Some(run.outcome.value)
  {
    var v := Submit(f, now).1;
    var run := DownloadRoute.GetInstagramMedia(v.url, v.kind, apiKey, ts, api);
    SentRequestPassesRouteChecks(f, now, apiKey, ts, serverNow, api);
    var h := DownloadRoute.Respond(v.url, v.kind, serverNow, run);
    if run.outcome.Ok? && |run.outcome.value| > 0 {
      assert h.response.body.Found? && h.response.status == 200;
      assert h.response.body.data.media == run.outcome.value;
    }
  }
}

=== FILE: download_route.dfy ===
/**
 * The download route: `getInstagramMedia` dispatching on the content type,
 * with every call to the scraping API replaced by an oracle `api` and
 * recorded in order, and the POST and PUT handlers built on it.
 */
module DownloadRoute {
  import opened Base
  import opened Text
  import opened Json
  import opened UrlScan
  import opened Probe
  import opened Normalize

  /** The scraping API's endpoints, each with the parameter it is sent. */
  datatype Call =
    | UserIdByUsername(username: string)
    | StoriesByUserId(userId: Json)
    | ReelByShortcode(shortcode: string)
    | PostByShortcode(code: Option<string>)
    | HighlightsByUserId(ownerId: Json)
    | HighlightById(highlightId: Json)

  /** What a call gives back: a body, or a failed request with the HTTP status when there was a response. */
  datatype Reply = Answered(body: Json) | Failed(status: Option<nat>)

  /** Why `getInstagramMedia` threw. */
  datatype Failure =
    | MissingApiKey
    | NoUsername
    | NoUserId
    | NoShortcode
    | TypeError
    | Upstream(status: Option<nat>)

  /** The calls made, in order, and what `getInstagramMedia` returned or threw. */
  datatype Run = Run(calls: seq<Call>, outcome: Result<seq<Media>, Failure>)

  /** Every record the route returns has a truthy url and a name starting with `instagram-`. */
  predicate AllWellFormed(ms: seq<Media>) {
    forall m :: m in ms ==> WellFormed(m, "instagram-")
  }

  /** A record well formed under a longer base is well formed under `instagram-`. */
  lemma WellFormedUnder(ms: seq<Media>, base: string, tail: string)
    requires base == "instagram-" + tail
    ensures (forall m :: m in ms ==> WellFormed(m, base)) ==> AllWellFormed(ms)
  {
    forall m | m in ms && (forall m' :: m' in ms ==> WellFormed(m', base))
      ensures WellFormed(m, "instagram-")
    {
      assert m.filename[..|base|] == base;
      assert m.filename[..10] == base[..10];
    }
  }

  /** Reel records are well formed under `instagram-`. */
  lemma ReelsWellFormed(ms: seq<Media>)
    ensures (forall m :: m in ms ==> WellFormed(m, "instagram-reel-")) ==> AllWellFormed(ms)
  {
    WellFormedUnder(ms, "instagram-reel-", "reel-");
  }

  /** Highlight records are well formed under `instagram-`. */
  lemma HighlightsWellFormed(ms: seq<Media>)
    ensures (forall m :: m in ms ==> WellFormed(m, "instagram-highlight-")) ==> AllWellFormed(ms)
  {
    WellFormedUnder(ms, "instagram-highlight-", "highlight-");
  }

  // ---------------------------------------------------------------------------
  // User id lookup (stories and profiles)

  /** The outcome of the `user_id_by_username` call: the id, or why there is none. */
  function LookupUserId(username: string, api: Call -> Reply): (r: Result<Json, Failure>)
    ensures r.Ok? <==> api(UserIdByUsername(username)).Answered? && Truthy(UserIdOf(api(UserIdByUsername(username)).body))
    ensures r.Ok? ==> r.value == UserIdOf(api(UserIdByUsername(username)).body)
    ensures r == Err(NoUserId) <==> api(UserIdByUsername(username)).Answered? && !Truthy(UserIdOf(api(UserIdByUsername(username)).body))
  {
    match api(UserIdByUsername(username))
    case Failed(st) => Err(Upstream(st))
    case Answered(b) =>
      var uid := UserIdOf(b);
      if Truthy(uid) then Ok(uid) else Err(NoUserId)
  }

  // ---------------------------------------------------------------------------
  // Stories

  /** `extractUsernameFromStoryUrl(url) || extractUsernameFromProfileUrl(url)` */
  function StoryOwner(url: string): (r: Option<string>)
    ensures StoryUsername(url).Some? ==> r == StoryUsername(url)
    ensures StoryUsername(url).None? ==> r == ProfileUsername(url)
  {
    match StoryUsername(url)
    case Some(u) => Some(u)
    case None => ProfileUsername(url)
  }

  /** `instagram-story-<userId>-<ts>` */
  function StoryBase(uid: Json, ts: nat): string {
    "instagram-story-" + Display(uid) + "-" + NatStr(ts)
  }

  /** `StoryBase` extends `instagram-`. */
  lemma StoryBasePrefix(uid: Json, ts: nat)
    ensures StoryBase(uid, ts) == "instagram-" + ("story-" + Display(uid) + "-" + NatStr(ts))
  {
  }

  /**
   * The story records of a `user_stories` body: the story loop over the
   * story list, with covers, indexed from 1. Iterating an object and a
   * `null`/`undefined` story both throw.
   */
  function StoryItems(b: Json, uid: Json, ts: nat): (r: Result<seq<Media>, Failure>)
    ensures r.Err? ==> r.error == TypeError
    ensures r.Err? <==> StoriesList(b).None? || exists k :: 0 <= k < |StoriesList(b).value| && Nullish(StoriesList(b).value[k])
    ensures r.Ok? ==> forall j :: 0 <= j < |r.value| ==>
              WellFormed(r.value[j], StoryBase(uid, ts)) && r.value[j].filename == IndexedName(StoryBase(uid, ts), 1 + j, r.value[j].kind)
    ensures r.Ok? ==> AllWellFormed(r.value)
    ensures r.Ok? ==> r.value == Named(Contents(StoriesList(b).value, FirstCandidateUrl), StoryBase(uid, ts), 1)
  {
    match StoriesList(b)
    case None => Err(TypeError)
    case Some(items) =>
      var w := ItemLoop(items, StoryBase(uid, ts), FirstCandidateUrl, 1);
      ItemLoopWellFormed(items, StoryBase(uid, ts), FirstCandidateUrl, 1);
      StoryBasePrefix(uid, ts);
      WellFormedUnder(w.pushed, StoryBase(uid, ts), "story-" + Display(uid) + "-" + NatStr(ts));
      if w.failed then Err(TypeError)
      else
        assert FirstNullish(items) == |items| && items[..|items|] == items;
        Ok(w.pushed)
  }

  /**
   * The story branch: username, user id, stories, then the story records.
   * A missing user id stops before the stories call.
   */
  function StoryRun(url: string, ts: nat, api: Call -> Reply): (r: Run)
    ensures StoryOwner(url).None? ==> r == Run([], Err(NoUsername))
    ensures StoryOwner(url).Some? ==> |r.calls| >= 1 && r.calls[0] == UserIdByUsername(StoryOwner(url).value)
    ensures r.outcome == Err(NoUserId) ==> |r.calls| == 1
    ensures r.outcome.Ok? ==>
              && |r.calls| == 2
              && StoryOwner(url).Some? && LookupUserId(StoryOwner(url).value, api).Ok?
              && r.calls[1] == StoriesByUserId(LookupUserId(StoryOwner(url).value, api).value)
              && api(r.calls[1]).Answered?
              && r.outcome == StoryItems(api(r.calls[1]).body, r.calls[1].userId, ts)
    ensures r.outcome.Ok? ==> AllWellFormed(r.outcome.value)
  {
    match StoryOwner(url)
    case None => Run([], Err(NoUsername))
    case Some(username) =>
      var c1 := UserIdByUsername(username);
      match LookupUserId(username, api)
      case Err(f) => Run([c1], Err(f))
      case Ok(uid) =>
        var c2 := StoriesByUserId(uid);
        match api(c2)
        case Failed(st) => Run([c1, c2], Err(Upstream(st)))
        case Answered(b) => Run([c1, c2], StoryItems(b, uid, ts))
  }

  // ---------------------------------------------------------------------------
  // Profiles: highlights

  /** `instagram-highlight-<title>-<ts>` */
  function HighlightBase(title: Json, ts: nat): string {
    "instagram-highlight-" + Display(title) + "-" + NatStr(ts)
  }

  /** `highlight.title || highlight.name || \`highlight_${highlight.id}\`` for a highlight with a truthy id. */
  function HighlightTitle(h: Json): Json {
    OrChain([Get(h, Title), Get(h, Name), Str("highlight_" + Display(Get(h, Id)))])
  }

  /**
   * The records of one highlight's `highlight_by_id` reply: the walk over
   * `data?.media || []`, indexed from `next`. A failed call, a non-iterable
   * `media` or a throwing item is caught; what was pushed before stays.
   */
  function HighlightItems(reply: Reply, title: Json, ts: nat, next: nat): (r: seq<Media>)
    ensures forall j :: 0 <= j < |r| ==>
              WellFormed(r[j], HighlightBase(title, ts)) && r[j].filename == IndexedName(HighlightBase(title, ts), next + j, r[j].kind)
  {
    match reply
    case Failed(_) => []
    case Answered(b) =>
      match Iterate(OrChain([Get(b, MediaList), Arr([])]))
      case None => []
      case Some(items) =>
        ItemLoopWellFormed(items, HighlightBase(title, ts), NoCover, next);
        ItemLoop(items, HighlightBase(title, ts), NoCover, next).pushed
  }

  /** The `highlight_by_id` calls the walk makes: one per highlight with a truthy id, up to the first `null`/`undefined` highlight. */
  function HighlightCalls(hs: seq<Json>): seq<Call>
    decreases |hs|
  {
    if |hs| == 0 || Nullish(hs[0]) then []
    else if Truthy(Get(hs[0], Id)) then [HighlightById(Get(hs[0], Id))] + HighlightCalls(hs[1..])
    else HighlightCalls(hs[1..])
  }

  /** `m` is named `instagram-highlight-...-<n><ext>`. */
  ghost predicate HighlightIndexed(m: Media, n: nat) {
    exists title: Json, ts: nat :: m.filename == IndexedName(HighlightBase(title, ts), n, m.kind)
  }

  /**
   * `for (const highlight of highlightsData)`: highlights without a truthy id
   * are skipped; for the others one call is made and its records appended,
   * indexed by `media.length + 1`. A `null`/`undefined` highlight throws out
   * of the route.
   */
  function HighlightsWalk(hs: seq<Json>, ts: nat, api: Call -> Reply, media: seq<Media>, calls: seq<Call>): (r: Run)
    ensures r.calls == calls + HighlightCalls(hs)
    ensures r.outcome.Err? <==> exists k :: 0 <= k < |hs| && Nullish(hs[k])
    ensures r.outcome.Err? ==> r.outcome.error == TypeError
    ensures r.outcome.Ok? ==> |r.outcome.value| >= |media| && r.outcome.value[..|media|] == media
    ensures r.outcome.Ok? ==> forall j :: |media| <= j < |r.outcome.value| ==>
              WellFormed(r.outcome.value[j], "instagram-highlight-") && HighlightIndexed(r.outcome.value[j], j + 1)
    decreases |hs|
  {
    if |hs| == 0 then
      Run(calls, Ok(media))
    else if Nullish(hs[0]) then
      Run(calls, Err(TypeError))
    else
      var id := Get(hs[0], Id);
      if !Truthy(id) then
        var r := HighlightsWalk(hs[1..], ts, api, media, calls);
        NullishShift(hs);
        r
      else
        var title := HighlightTitle(hs[0]);
        var c := HighlightById(id);
        var pushed := HighlightItems(api(c), title, ts, |media| + 1);
        var r := HighlightsWalk(hs[1..], ts, api, media + pushed, calls + [c]);
        NullishShift(hs);
        HighlightCallsStep(hs, calls);
        HighlightsPushed(media, pushed, title, ts, r);
        r
  }

  /** A highlight with a truthy id adds its call ahead of the rest of the walk's calls. */
  lemma HighlightCallsStep(hs: seq<Json>, calls: seq<Call>)
    requires |hs| > 0 && !Nullish(hs[0]) && Truthy(Get(hs[0], Id))
    ensures calls + [HighlightById(Get(hs[0], Id))] + HighlightCalls(hs[1..]) == calls + HighlightCalls(hs)
  {
    var c := HighlightById(Get(hs[0], Id));
    assert HighlightCalls(hs) == [c] + HighlightCalls(hs[1..]);
    assert calls + [c] + HighlightCalls(hs[1..]) == calls + ([c] + HighlightCalls(hs[1..]));
  }

  /** One highlight's records, indexed after `media`, keep the walk's naming invariant. */
  lemma HighlightsPushed(media: seq<Media>, pushed: seq<Media>, title: Json, ts: nat, r: Run)
    requires forall j :: 0 <= j < |pushed| ==>
               WellFormed(pushed[j], HighlightBase(title, ts)) && pushed[j].filename == IndexedName(HighlightBase(title, ts), |media| + 1 + j, pushed[j].kind)
    requires r.outcome.Ok? ==> |r.outcome.value| >= |media + pushed| && r.outcome.value[..|media + pushed|] == media + pushed
    requires r.outcome.Ok? ==> forall j :: |media + pushed| <= j < |r.outcome.value| ==>
               WellFormed(r.outcome.value[j], "instagram-highlight-") && HighlightIndexed(r.outcome.value[j], j + 1)
    ensures r.outcome.Ok? ==> |r.outcome.value| >= |media| && r.outcome.value[..|media|] == media
    ensures r.outcome.Ok? ==> forall j :: |media| <= j < |r.outcome.value| ==>
              WellFormed(r.outcome.value[j], "instagram-highlight-") && HighlightIndexed(r.outcome.value[j], j + 1)
  {
    if r.outcome.Ok? {
      var out := r.outcome.value;
      assert out[..|media|] == (media + pushed)[..|media|];
      forall j | |media| <= j < |media + pushed|
        ensures WellFormed(out[j], "instagram-highlight-") && HighlightIndexed(out[j], j + 1)
      {
        assert out[j] == (media + pushed)[j] == pushed[j - |media|];
        HighlightRecord(pushed[j - |media|], title, ts, j + 1);
      }
    }
  }

  /** A record named after a highlight's base is a highlight record with that index. */
  lemma HighlightRecord(p: Media, title: Json, ts: nat, n: nat)
    requires WellFormed(p, HighlightBase(title, ts)) && p.filename == IndexedName(HighlightBase(title, ts), n, p.kind)
    ensures WellFormed(p, "instagram-highlight-") && HighlightIndexed(p, n)
  {
    StartsWithShorter(p.filename, "instagram-highlight-", Display(title) + "-" + NatStr(ts));
  }

  /**
   * The profile branch: username, user id, highlights list, then one
   * `highlight_by_id` call per highlight with a truthy id.
   */
  function ProfileRun(url: string, ts: nat, api: Call -> Reply): (r: Run)
    ensures ProfileUsername(url).None? ==> r == Run([], Err(NoUsername))
    ensures r.outcome == Err(NoUserId) ==> |r.calls| == 1
    ensures r.outcome.Ok? ==> forall j :: 0 <= j < |r.outcome.value| ==> HighlightIndexed(r.outcome.value[j], j + 1)
    ensures r.outcome.Ok? ==> forall m :: m in r.outcome.value ==> WellFormed(m, "instagram-highlight-")
    ensures r.outcome.Ok? ==> AllWellFormed(r.outcome.value)
  {
    var r := ProfileWalk(url, ts, api);
    HighlightsWellFormed(if r.outcome.Ok? then r.outcome.value else []);
    r
  }

  /** The profile branch without the final well-formedness step. */
  function ProfileWalk(url: string, ts: nat, api: Call -> Reply): (r: Run)
    ensures ProfileUsername(url).None? ==> r == Run([], Err(NoUsername))
    ensures r.outcome == Err(NoUserId) ==> |r.calls| == 1
    ensures r.outcome.Ok? ==> forall j :: 0 <= j < |r.outcome.value| ==> HighlightIndexed(r.outcome.value[j], j + 1)
    ensures r.outcome.Ok? ==> forall m :: m in r.outcome.value ==> WellFormed(m, "instagram-highlight-")
  {
    match ProfileUsername(url)
    case None => Run([], Err(NoUsername))
    case Some(username) =>
      var c1 := UserIdByUsername(username);
      match LookupUserId(username, api)
      case Err(f) => Run([c1], Err(f))
      case Ok(uid) =>
        var c2 := HighlightsByUserId(uid);
        match api(c2)
        case Failed(st) => Run([c1, c2], Err(Upstream(st)))
        case Answered(b) => HighlightsWalk(HighlightsList(b), ts, api, [], [c1, c2])
  }

  // ---------------------------------------------------------------------------
  // Reels and posts

  /** The reel branch: no call at all without a shortcode. */
  function ReelRun(url: string, ts: nat, api: Call -> Reply): (r: Run)
    ensures ExtractShortcode(url).None? <==> r == Run([], Err(NoShortcode))
    ensures ExtractShortcode(url).Some? ==> r.calls == [ReelByShortcode(ExtractShortcode(url).value)]
    ensures r.outcome.Ok? ==> |r.outcome.value| <= 2 && forall m :: m in r.outcome.value ==> WellFormed(m, "instagram-reel-")
    ensures r.outcome.Ok? ==> AllWellFormed(r.outcome.value)
    ensures r.outcome.Ok? ==>
              api(r.calls[0]).Answered? && ReelRecords(api(r.calls[0]).body, ExtractShortcode(url).value, ts) == Some(r.outcome.value)
    ensures ExtractShortcode(url).Some? && api(r.calls[0]).Answered? ==>
              (r.outcome.Ok? <==> !Nullish(api(r.calls[0]).body))
  {
    match ExtractShortcode(url)
    case None => Run([], Err(NoShortcode))
    case Some(sc) =>
      var c := ReelByShortcode(sc);
      match api(c)
      case Failed(st) => Run([c], Err(Upstream(st)))
      case Answered(b) =>
        match ReelRecords(b, sc, ts)
        case None => Run([c], Err(TypeError))
        case Some(ms) =>
          ReelsWellFormed(ms);
          Run([c], Ok(ms))
  }

  /** The post branch: one call with the shortcode (or `null`); every failure is caught and yields `[]`. */
  function PostRun(url: string, ts: nat, api: Call -> Reply): (r: Run)
    ensures r.calls == [PostByShortcode(ExtractShortcode(url))]
    ensures r.outcome.Ok?
    ensures api(PostByShortcode(ExtractShortcode(url))).Failed? ==> r.outcome.value == []
    ensures forall m :: m in r.outcome.value ==> WellFormed(m, PostBase(ExtractShortcode(url), ts))
    ensures AllWellFormed(r.outcome.value)
    ensures api(r.calls[0]).Answered? ==> r.outcome.value == PostRecords(api(r.calls[0]).body, ExtractShortcode(url), ts)
  {
    var sc := ExtractShortcode(url);
    var c := PostByShortcode(sc);
    match api(c)
    case Failed(_) => Run([c], Ok([]))
    case Answered(b) =>
      var base := PostBase(sc, ts);
      WellFormedUnder(PostRecords(b, sc, ts), base, base[10..]);
      Run([c], Ok(PostRecords(b, sc, ts)))
  }

  /**
   * `getInstagramMedia(url, type)`: the API key check, then `story`, `reel`
   * and `profile` by name; every other type takes the post branch.
   */
  function GetInstagramMedia(url: string, kind: string, apiKey: string, ts: nat, api: Call -> Reply): (r: Run)
    ensures apiKey == "" ==> r == Run([], Err(MissingApiKey))
    ensures r.outcome.Ok? ==> AllWellFormed(r.outcome.value)
    ensures apiKey != "" && kind !in {"story", "reel", "profile"} ==>
              r.outcome.Ok? && r.calls == [PostByShortcode(ExtractShortcode(url))]
  {
    if apiKey == "" then Run([], Err(MissingApiKey))
    else if kind == "story" then StoryRun(url, ts, api)
    else if kind == "reel" then ReelRun(url, ts, api)
    else if kind == "profile" then ProfileRun(url, ts, api)
    else PostRun(url, ts, api)
  }

  // ---------------------------------------------------------------------------
  // POST /api/download

  /** The `error` text of a failed request. */
  datatype ErrorText =
    | FieldsRequired
    | ProfileComingSoon
    | NoMediaFound
    | TooManyRequests
    | Thrown(failure: Failure)

  /** The `data` object of a successful response. */
  datatype Payload = Payload(
    media: seq<Media>,
    kind: string,
    originalUrl: string,
    shortcode: Option<string>,
    downloadUrl: Json,
    quality: string,
    filename: string,
    isRealContent: bool,
    mediaCount: nat,
    hasMultipleMedia: bool)

  datatype Body = Found(data: Payload) | Problem(error: ErrorText)

  datatype Response = Response(status: nat, body: Body)

  /** The POST handler's response together with the API calls it made. */
  datatype Handled = Handled(calls: seq<Call>, response: Response)

  /** `error.response?.status || 500` */
  function ErrorStatus(f: Failure): (s: nat)
    ensures s != 0
    ensures f.Upstream? && f.status.Some? && f.status.value != 0 ==> s == f.status.value
    ensures !(f.Upstream? && f.status.Some?) ==> s == 500
  {
    match f
    case Upstream(Some(st)) => if st != 0 then st else 500
    case _ => 500
  }

  /** The message of a thrown error; a 429 from upstream gets the "too quickly" text. */
  function ErrorMessage(f: Failure): ErrorText {
    if f == Upstream(Some(429)) then TooManyRequests else Thrown(f)
  }

  /**
   * The response to what `getInstagramMedia` returned or threw: the error
   * status of a thrown error, 404 for no media, else 200 with the media and
   * fields taken from the first record.
   */
  function Respond(url: string, kind: string, now: nat, run: Run): (h: Handled)
    requires run.outcome.Ok? ==> AllWellFormed(run.outcome.value)
    ensures h.calls == run.calls
    ensures h.response.body == Problem(NoMediaFound) <==> run.outcome == Ok([])
    ensures h.response.body == Problem(NoMediaFound) ==> h.response.status == 404
    ensures run.outcome.Err? ==> h.response == Response(ErrorStatus(run.outcome.error), Problem(ErrorMessage(run.outcome.error)))
    ensures h.response.body.Found? <==> run.outcome.Ok? && |run.outcome.value| > 0
    ensures h.response.body.Found? ==>
              var d := h.response.body.data;
              && h.response.status == 200
              && d.media == run.outcome.value
              && |d.media| > 0
              && d.mediaCount == |d.media|
              && (d.hasMultipleMedia <==> |d.media| > 1)
              && d.downloadUrl == d.media[0].url
              && d.filename == d.media[0].filename
              && d.originalUrl == url && d.kind == kind
              && d.shortcode == ExtractShortcode(url)
  {
    match run.outcome
    case Err(f) => Handled(run.calls, Response(ErrorStatus(f), Problem(ErrorMessage(f))))
    case Ok(media) =>
      if |media| == 0 then
        Handled(run.calls, Response(404, Problem(NoMediaFound)))
      else
        var sc := ExtractShortcode(url);
        var first := media[0];
        assert first in media;
        Handled(run.calls, Response(200, Found(Payload(
          media, kind, url, sc,
          if Truthy(first.url) then first.url else Str(""),
          "hd",
          if first.filename != "" then first.filename
          else "instagram-" + (match sc case Some(code) => code case None => "content") + "-" + NatStr(now) + ".jpg",
          true, |media|, |media| > 1))))
  }

  /**
   * `POST /api/download` for a body `{url, type}` (`""` stands for a missing
   * field): 400 without both fields, 400 for `profile` before any work,
   * otherwise the response to `getInstagramMedia`.
   */
  function DownloadPost(url: string, kind: string, apiKey: string, ts: nat, now: nat, api: Call -> Reply): (h: Handled)
    ensures url == "" || kind == "" ==> h == Handled([], Response(400, Problem(FieldsRequired)))
    ensures url != "" && kind == "profile" ==> h == Handled([], Response(400, Problem(ProfileComingSoon)))
    ensures url != "" && kind != "" && kind != "profile" ==>
              h == Respond(url, kind, now, GetInstagramMedia(url, kind, apiKey, ts, api))
  {
    if url == "" || kind == "" then
      Handled([], Response(400, Problem(FieldsRequired)))
    else if kind == "profile" then
      Handled([], Response(400, Problem(ProfileComingSoon)))
    else
      Respond(url, kind, now, GetInstagramMedia(url, kind, apiKey, ts, api))
  }

  /** The statuses the POST handler can answer with: 200, 400, 404, 500, or an upstream error status. */
  lemma PostStatuses(url: string, kind: string, apiKey: string, ts: nat, now: nat, api: Call -> Reply)
    ensures var h := DownloadPost(url, kind, apiKey, ts, now, api);
            var s := h.response.status;
            || s in {200, 400, 404, 500}
            || (h.response.body.Problem? && h.response.body.error.Thrown? && h.response.body.error.failure == Upstream(Some(s)))
            || (h.response.body == Problem(TooManyRequests) && s == 429)
  {
  }

  /** The profile type never reaches the profile branch through POST: no call is made. */
  lemma ProfileUnreachable(url: string, apiKey: string, ts: nat, now: nat, api: Call -> Reply)
    ensures DownloadPost(url, "profile", apiKey, ts, now, api).calls == []
    ensures DownloadPost(url, "profile", apiKey, ts, now, api).response.status == 400
  {
  }

  /** A canonical post link asks the API for its shortcode, whatever the API answers. */
  lemma CanonicalPostCall(code: string, apiKey: string, ts: nat, now: nat, api: Call -> Reply)
    requires |code| >= 1 && forall c :: c in code ==> InClass(c, Code)
    requires apiKey != ""
    ensures DownloadPost("https://www.instagram.com/p/" + code + "/", "post", apiKey, ts, now, api).calls
      == [PostByShortcode(Some(code))]
  {
    var url := "https://www.instagram.com/p/" + code + "/";
    CanonicalPostLink(code);
    assert |url| > 0;
    var run := GetInstagramMedia(url, "post", apiKey, ts, api);
    assert run.calls == [PostByShortcode(Some(code))];
  }

  /** A user id lookup that finds nothing stops the story branch before the stories call. */
  lemma NoUserIdNoStoriesCall(url: string, apiKey: string, ts: nat, now: nat, api: Call -> Reply, username: string)
    requires apiKey != "" && StoryOwner(url) == Some(username)
    requires api(UserIdByUsername(username)).Answered? && !Truthy(UserIdOf(api(UserIdByUsername(username)).body))
    ensures DownloadPost(url, "story", apiKey, ts, now, api)
      == Handled([UserIdByUsername(username)], Response(500, Problem(Thrown(NoUserId))))
  {
  }

  // ---------------------------------------------------------------------------
  // PUT /api/download: the ZIP of selected records

  /** A body fetch: the bytes at a url, or `None` when the download fails. */
  type Fetch = Json -> Option<seq<byte>>

  /** The entry name of item `i`: `<title>_<i+1>.<ext>` under a title, else the item's own file name. */
  function EntryName(m: Media, i: nat, title: string): string {
    if title != "" then title + "_" + NatStr(i + 1) + "." + (if m.kind == Video then "mp4" else "jpg")
    else m.filename
  }

  /** The entries for items `from..`, in order: only the items whose download succeeded. */
  function ZipEntries(items: seq<Media>, title: string, fetch: Fetch, from: nat): seq<(string, seq<byte>)>
    requires from <= |items|
    decreases |items| - from
  {
    if from == |items| then []
    else
      (match fetch(items[from].url)
       case Some(bytes) => [(EntryName(items[from], from, title), bytes)]
       case None => [])
      + ZipEntries(items, title, fetch, from + 1)
  }

  /**
   * `createZipFromMedia`: download each item in turn and add it under its
   * entry name; a failed download is skipped and the loop goes on.
   */
  method CreateZip(items: seq<Media>, title: string, fetch: Fetch) returns (entries: seq<(string, seq<byte>)>)
    ensures entries == ZipEntries(items, title, fetch, 0)
    ensures |entries| <= |items|
  {
    entries := [];
    var i := 0;
    while i < |items|
      invariant 0 <= i <= |items|
      invariant entries + ZipEntries(items, title, fetch, i) == ZipEntries(items, title, fetch, 0)
      invariant |entries| <= i
    {
      var got := fetch(items[i].url);
      if got.Some? {
        entries := entries + [(EntryName(items[i], i, title), got.value)];
      }
      i := i + 1;
    }
    ZipEntriesBound(items, title, fetch, 0);
  }

  /** At most one entry per item. */
  lemma {:induction false} ZipEntriesBound(items: seq<Media>, title: string, fetch: Fetch, from: nat)
    requires from <= |items|
    ensures |ZipEntries(items, title, fetch, from)| <= |items| - from
    decreases |items| - from
  {
    if from < |items| {
      ZipEntriesBound(items, title, fetch, from + 1);
    }
  }

  /** Under a title, an entry's name records the position of its item, so names never collide. */
  lemma EntryNamesDistinct(m1: Media, m2: Media, i: nat, j: nat, title: string)
    requires title != "" && i != j
    ensures EntryName(m1, i, title) != EntryName(m2, j, title)
  {
    var a := NatStr(i + 1);
    var b := NatStr(j + 1);
    var e1 := if m1.kind == Video then "mp4" else "jpg";
    var e2 := if m2.kind == Video then "mp4" else "jpg";
    if EntryName(m1, i, title) == EntryName(m2, j, title) {
      var s := EntryName(m1, i, title);
      var p := title + "_";
      assert s == p + (a + "." + e1);
      assert s == p + (b + "." + e2);
      assert s[|p|..] == a + "." + e1 == b + "." + e2;
      DigitsThenDot(a, e1, b, e2);
      NatStrInjective(i + 1, j + 1);
    }
  }

  /** Two digit strings each followed by a dot: equal strings have equal digit parts. */
  lemma DigitsThenDot(a: string, e1: string, b: string, e2: string)
    requires forall k :: 0 <= k < |a| ==> IsDigit(a[k])
    requires forall k :: 0 <= k < |b| ==> IsDigit(b[k])
    requires a + "." + e1 == b + "." + e2
    ensures a == b
  {
    var s := a + "." + e1;
    assert IndexOf(s, '.') == |a| by {
      assert s[|a|] == '.';
      assert forall k :: 0 <= k < |a| ==> s[k] == a[k];
    }
    assert IndexOf(b + "." + e2, '.') == |b| by {
      var t := b + "." + e2;
      assert t[|b|] == '.';
      assert forall k :: 0 <= k < |b| ==> t[k] == b[k];
    }
    assert a == s[..|a|];
    assert b == s[..|b|];
  }

  /** The PUT handler's answer: 400 without items, else the archive's file name and entries. */
  datatype ZipReply = ZipRejected(status: nat) | Archive(filename: string, entries: seq<(string, seq<byte>)>)

  /** `instagram-highlights-<title>-<now>.zip` under a title, else `instagram-media-<now>.zip`. */
  function ArchiveName(title: string, now: nat): string {
    if title != "" then "instagram-highlights-" + title + "-" + NatStr(now) + ".zip"
    else "instagram-media-" + NatStr(now) + ".zip"
  }

  /** The archive's name is a valid header value exactly when the title is: the rest is ASCII. */
  lemma ArchiveNameSafe(title: string, now: nat)
    ensures HeaderSafe(ArchiveName(title, now)) <==> HeaderSafe(title)
  {
    var n := NatStr(now);
    NatStrHeaderSafe(now);
    assert HeaderSafe(".zip") && HeaderSafe("-");
    if title != "" {
      var head := "instagram-highlights-";
      assert HeaderSafe(head);
      HeaderSafeAppend(head, title);
      HeaderSafeAppend(head + title, "-");
      HeaderSafeAppend(head + title + "-", n);
      HeaderSafeAppend(head + title + "-" + n, ".zip");
    } else {
      var head := "instagram-media-";
      assert HeaderSafe(head);
      HeaderSafeAppend(head, n);
      HeaderSafeAppend(head + n, ".zip");
    }
  }

  /**
   * `PUT /api/download` for `{mediaItems, highlightTitle}` (`None` for a
   * missing or non-array `mediaItems`, `""` for no title). The archive is
   * built before the response; a title the `Headers` object refuses in
   * `Content-Disposition` then throws into the 500 answer.
   */
  method DownloadPut(items: Option<seq<Media>>, title: string, now: nat, fetch: Fetch) returns (r: ZipReply)
    ensures items.None? || items == Some([]) <==> r == ZipRejected(400)
    ensures r.Archive? <==> items.Some? && |items.value| > 0 && HeaderSafe(title)
    ensures items.Some? && |items.value| > 0 && !HeaderSafe(title) ==> r == ZipRejected(500)
    ensures r.Archive? ==> r.filename == ArchiveName(title, now) && r.entries == ZipEntries(items.value, title, fetch, 0)
  {
    if items.None? || |items.value| == 0 {
      return ZipRejected(400);
    }
    var entries := CreateZip(items.value, title, fetch);
    var name := ArchiveName(title, now);
    ArchiveNameSafe(title, now);
    if !HeaderSafe(Disposition(name)) {
      return ZipRejected(500);
    }
    return Archive(name, entries);
  }

  /** Three titled items whose second download fails: two entries, numbered 1 and 3. */
  lemma SkippedDownloadKeepsNumbering(a: Media, b: Media, c: Media, fetch: Fetch)
    requires a.kind == Image && c.kind == Video
    requires fetch(a.url).Some? && fetch(b.url).None? && fetch(c.url).Some?
    ensures ZipEntries([a, b, c], "trip", fetch, 0)
      == [("trip_1.jpg", fetch(a.url).value), ("trip_3.mp4", fetch(c.url).value)]
  {
    assert NatStr(1) == "1" && NatStr(3) == "3";
    assert EntryName(a, 0, "trip") == "trip_1.jpg";
    assert EntryName(c, 2, "trip") == "trip_3.mp4";
    assert ZipEntries([a, b, c], "trip", fetch, 3) == [];
    assert ZipEntries([a, b, c], "trip", fetch, 2) == [("trip_3.mp4", fetch(c.url).value)];
    assert ZipEntries([a, b, c], "trip", fetch, 1) == [("trip_3.mp4", fetch(c.url).value)];
  }
}

=== FILE: faq.dfy ===
/**
 * The FAQ page: the category and search filter, the expand toggle keyed by
 * position, the per-category counts, and the FAQPage JSON-LD.
 */
module Faq {
  import opened Text

  /** One question with its answer and category id. */
  datatype FaqItem = FaqItem(question: string, answer: string, category: string)

  /** The category ids besides `all`. */
  const CategoryIds: seq<string> := ["general", "download", "technical", "privacy", "troubleshooting"]

  // ---------------------------------------------------------------------------
  // Filter

  /** Every string contains the empty string. */
  lemma IncludesEmpty(s: string)
    ensures Includes(s, "")
  {
    assert OccursAt(s, "", 0);
  }

  /**
   * The filter predicate: the category is `all` or the item's own, and the
   * lower-cased search term occurs in the lower-cased question or answer.
   */
  predicate Shown(item: FaqItem, category: string, search: string) {
    && (category == "all" || item.category == category)
    && (Includes(Lower(item.question), Lower(search)) || Includes(Lower(item.answer), Lower(search)))
  }

  /** `faqData.filter(...)`: the shown items, in the list's order. */
  function Filtered(items: seq<FaqItem>, category: string, search: string): (r: seq<FaqItem>)
    ensures |r| <= |items|
    ensures forall x :: x in r ==> x in items && Shown(x, category, search)
    ensures forall i :: 0 <= i < |items| && Shown(items[i], category, search) ==> items[i] in r
    decreases |items|
  {
    if |items| == 0 then []
    else
      var rest := Filtered(items[..|items| - 1], category, search);
      var last := items[|items| - 1];
      assert forall i :: 0 <= i < |items| - 1 ==> items[i] == items[..|items| - 1][i];
      if Shown(last, category, search) then rest + [last] else rest
  }

  /** Filtering a concatenation filters each part: the order of the list is kept. */
  lemma {:induction false} FilteredAppend(a: seq<FaqItem>, b: seq<FaqItem>, category: string, search: string)
    ensures Filtered(a + b, category, search) == Filtered(a, category, search) + Filtered(b, category, search)
    decreases |b|
  {
    if |b| > 0 {
      var b' := b[..|b| - 1];
      assert (a + b)[..|a + b| - 1] == a + b';
      FilteredAppend(a, b', category, search);
    } else {
      assert a + b == a;
    }
  }

  /** A single item is shown or not: together with FilteredAppend this fixes the filter's result. */
  lemma FilteredOne(x: FaqItem, category: string, search: string)
    ensures Filtered([x], category, search) == if Shown(x, category, search) then [x] else []
  {
    assert [x][..0] == [];
  }

  /** An empty search under `all` shows every item. */
  lemma {:induction false} EmptySearchShowsAll(items: seq<FaqItem>)
    ensures Filtered(items, "all", "") == items
    decreases |items|
  {
    if |items| > 0 {
      EmptySearchShowsAll(items[..|items| - 1]);
      IncludesEmpty(Lower(items[|items| - 1].question));
      assert Lower("") == "";
      assert items[..|items| - 1] + [items[|items| - 1]] == items;
    }
  }

  /** The search ignores case: a term and its lower-cased form show the same items. */
  lemma SearchIgnoresCase(item: FaqItem, category: string, search: string)
    ensures Shown(item, category, search) <==> Shown(item, category, Lower(search))
  {
    LowerIdempotent(search);
  }

  // ---------------------------------------------------------------------------
  // Counts

  /** The count shown beside a category: all items for `all`, else the items of that category. */
  function CategoryCount(items: seq<FaqItem>, id: string): (n: nat)
    ensures n <= |items|
    ensures id == "all" ==> n == |items|
    decreases |items|
  {
    if id == "all" then |items|
    else if |items| == 0 then 0
    else CategoryCount(items[..|items| - 1], id) + (if items[|items| - 1].category == id then 1 else 0)
  }

  /** The count of a category is the number of items its filter shows with no search term. */
  lemma {:induction false} CountMatchesFilter(items: seq<FaqItem>, id: string)
    ensures CategoryCount(items, id) == |Filtered(items, id, "")|
    decreases |items|
  {
    if id == "all" {
      EmptySearchShowsAll(items);
    } else if |items| > 0 {
      CountMatchesFilter(items[..|items| - 1], id);
      IncludesEmpty(Lower(items[|items| - 1].question));
      assert Lower("") == "";
    }
  }

  /** When every item belongs to one of the five categories, their counts add up to the `all` count. */
  lemma {:induction false} CountsAddUp(items: seq<FaqItem>)
    requires forall i :: 0 <= i < |items| ==> items[i].category in CategoryIds
    ensures CategoryCount(items, "general") + CategoryCount(items, "download") + CategoryCount(items, "technical")
            + CategoryCount(items, "privacy") + CategoryCount(items, "troubleshooting")
            == CategoryCount(items, "all")
    decreases |items|
  {
    if |items| > 0 {
      var init := items[..|items| - 1];
      assert forall i :: 0 <= i < |init| ==> init[i] == items[i];
      CountsAddUp(init);
      assert items[|items| - 1].category in CategoryIds;
    }
  }

  // ---------------------------------------------------------------------------
  // Expanding

  /** No position is listed twice. */
  predicate NoDuplicates(xs: seq<int>) {
    forall i, j :: 0 <= i < j < |xs| ==> xs[i] != xs[j]
  }

  /** `prev.filter(i => i !== index)` */
  function Without(xs: seq<int>, index: int): (r: seq<int>)
    ensures index !in r
    ensures forall x :: x in r <==> x in xs && x != index
    ensures NoDuplicates(xs) ==> NoDuplicates(r)
    ensures index !in xs ==> r == xs
    decreases |xs|
  {
    if |xs| == 0 then []
    else
      var rest := Without(xs[1..], index);
      assert forall x :: x in xs[1..] ==> x in xs;
      if xs[0] == index then rest
      else
        assert NoDuplicates(xs) ==> xs[0] !in xs[1..];
        [xs[0]] + rest
  }

  /** `toggleItem(index)`: removes an expanded position, appends a collapsed one. */
  function ToggleExpanded(xs: seq<int>, index: int): (r: seq<int>)
    ensures index in r <==> index !in xs
    ensures forall x :: x != index ==> (x in r <==> x in xs)
    ensures NoDuplicates(xs) ==> NoDuplicates(r)
  {
    if index in xs then Without(xs, index) else xs + [index]
  }

  /** Toggling twice restores which positions are expanded, and the list itself when the position started collapsed. */
  lemma ToggleExpandedTwice(xs: seq<int>, index: int)
    ensures forall x :: x in ToggleExpanded(ToggleExpanded(xs, index), index) <==> x in xs
    ensures index !in xs ==> ToggleExpanded(ToggleExpanded(xs, index), index) == xs
  {
    if index !in xs {
      WithoutAppended(xs, index);
    }
  }

  /** Removing a value just appended to a list without it gives the list back. */
  lemma {:induction false} WithoutAppended(xs: seq<int>, index: int)
    requires index !in xs
    ensures Without(xs + [index], index) == xs
    decreases |xs|
  {
    if |xs| == 0 {
      assert Without([index][1..], index) == [];
    } else {
      assert (xs + [index])[1..] == xs[1..] + [index];
      WithoutAppended(xs[1..], index);
      assert [xs[0]] + xs[1..] == xs;
    }
  }

  /** The items whose answers are open: those at the expanded positions of the shown list, in the order they were opened. */
  function Opened(shown: seq<FaqItem>, ks: seq<int>): (r: seq<FaqItem>)
    ensures forall x :: x in r ==> exists k :: 0 <= k < |shown| && k in ks && shown[k] == x
    decreases |ks|
  {
    if |ks| == 0 then []
    else
      var rest := Opened(shown, ks[1..]);
      assert forall k :: k in ks[1..] ==> k in ks;
      if 0 <= ks[0] < |shown| then [shown[ks[0]]] + rest else rest
  }

  /**
   * Expansion follows the position: after the search hides the first of two
   * items, the open position 0 shows the other item's answer.
   */
  lemma ExpansionFollowsPosition(a: FaqItem, b: FaqItem, search: string, other: string)
    requires Shown(a, "all", search) && Shown(b, "all", search)
    requires !Shown(a, "all", other) && Shown(b, "all", other)
    ensures Opened(Filtered([a, b], "all", search), [0]) == [a]
    ensures Opened(Filtered([a, b], "all", other), [0]) == [b]
  {
    FilteredPair(a, b, "all", search);
    FilteredPair(a, b, "all", other);
  }

  /** Filtering two items keeps each one the filter shows, in order. */
  lemma FilteredPair(a: FaqItem, b: FaqItem, category: string, search: string)
    ensures Filtered([a, b], category, search)
      == (if Shown(a, category, search) then [a] else []) + (if Shown(b, category, search) then [b] else [])
  {
    assert [a, b][..1] == [a] && [a][..0] == [];
  }

  /** The search box and category after `Clear Filters`. */
  datatype Filters = Filters(category: string, search: string)

  /** `Clear Filters`: back to `all` with no search term. */
  function ClearFilters(f: Filters): (r: Filters)
    ensures r.category == "all" && r.search == ""
  {
    Filters("all", "")
  }

  /** After `Clear Filters` every item is shown again, in order. */
  lemma ClearFiltersShowsAll(f: Filters, items: seq<FaqItem>)
    ensures Filtered(items, ClearFilters(f).category, ClearFilters(f).search) == items
  {
    EmptySearchShowsAll(items);
  }

  // ---------------------------------------------------------------------------
  // JSON-LD

  /** `answer.replace(/\n/g, '<br/>')` */
  function BreakLines(s: string): (r: string)
    ensures '\n' !in r
    ensures '\n' !in s ==> r == s
    decreases |s|
  {
    if |s| == 0 then ""
    else Replaced(s[0]) + BreakLines(s[1..])
  }

  /** What one character becomes in the JSON-LD answer. */
  function Replaced(c: char): (r: string)
    ensures '\n' !in r
    ensures c != '\n' ==> r == [c]
  {
    if c == '\n' then "<br/>" else [c]
  }

  /** Replacing line breaks works piecewise: a concatenation is replaced part by part. */
  lemma {:induction false} BreakLinesAppend(a: string, b: string)
    ensures BreakLines(a + b) == BreakLines(a) + BreakLines(b)
    decreases |a|
  {
    if |a| > 0 {
      var ab := a + b;
      assert ab[0] == a[0] && ab[1..] == a[1..] + b;
      BreakLinesAppend(a[1..], b);
      assert BreakLines(ab) == Replaced(a[0]) + (BreakLines(a[1..]) + BreakLines(b));
    } else {
      assert a + b == b;
    }
  }

  /** Each line break becomes `<br/>`, and the text around it is replaced on its own. */
  lemma BreakLinesAt(a: string, b: string)
    ensures BreakLines(a + "\n" + b) == BreakLines(a) + "<br/>" + BreakLines(b)
  {
    var nb := "\n" + b;
    assert a + "\n" + b == a + nb;
    BreakLinesAppend(a, nb);
    assert nb[0] == '\n' && nb[1..] == b;
    assert BreakLines(nb) == Replaced('\n') + BreakLines(b);
  }

  /** The number of line breaks in `s`. */
  function LineBreaks(s: string): nat
    decreases |s|
  {
    if |s| == 0 then 0 else (if s[0] == '\n' then 1 else 0) + LineBreaks(s[1..])
  }

  /** Each line break grows the text by four characters. */
  lemma {:induction false} BreakLinesLength(s: string)
    ensures |BreakLines(s)| == |s| + 4 * LineBreaks(s)
    decreases |s|
  {
    if |s| > 0 {
      BreakLinesLength(s[1..]);
    }
  }

  /** One entry of `mainEntity`: a Question with its name and the answer text. */
  datatype Question = Question(name: string, acceptedAnswer: string)

  /** The FAQPage JSON-LD: one Question per item, in order, answers with `<br/>` line breaks. */
  function Schema(items: seq<FaqItem>): (r: seq<Question>)
    ensures |r| == |items|
    ensures forall i :: 0 <= i < |items| ==> r[i].name == items[i].question
    ensures forall i :: 0 <= i < |items| ==> '\n' !in r[i].acceptedAnswer
    ensures forall i :: 0 <= i < |items| && '\n' !in items[i].answer ==> r[i].acceptedAnswer == items[i].answer
    ensures forall i :: 0 <= i < |items| ==> r[i].acceptedAnswer == BreakLines(items[i].answer)
  {
    seq(|items|, i requires 0 <= i < |items| => Question(items[i].question, BreakLines(items[i].answer)))
  }
}

=== FILE: json.dfy ===
/**
 * Upstream response bodies as JSON values, with the JavaScript operations the
 * download route applies to them: truthiness, optional-chained property reads,
 * `x[0]`, `for ... of` iteration, `.includes(...)` and template-literal
 * interpolation.
 */
module Json {
  import opened Base
  import opened Text

  /**
   * The property names the download route reads from upstream bodies.
   * None of them names a built-in property of strings, numbers or arrays, so
   * reading one from anything but an object gives `undefined`.
   */
  datatype Key =
    | UserId | Id | UserIdCaps | Data | Result | Stories | Highlights | Tray
    | Title | Name | MediaList | Success | Url | Type | Quality | Width | Height
    | ImageVersions2 | Candidates | VideoVersions | CarouselMedia

  /** The property name as it appears in the upstream JSON. */
  function KeyName(k: Key): string {
    match k
    case UserId => "user_id"
    case Id => "id"
    case UserIdCaps => "UserID"
    case Data => "data"
    case Result => "result"
    case Stories => "stories"
    case Highlights => "highlights"
    case Tray => "tray"
    case Title => "title"
    case Name => "name"
    case MediaList => "media"
    case Success => "success"
    case Url => "url"
    case Type => "type"
    case Quality => "quality"
    case Width => "width"
    case Height => "height"
    case ImageVersions2 => "image_versions2"
    case Candidates => "candidates"
    case VideoVersions => "video_versions"
    case CarouselMedia => "carousel_media"
  }

  /**
   * A JSON value, plus `Missing` for JavaScript's `undefined` (what reading an
   * absent property gives). Numbers are integral.
   */
  datatype Json =
    | Missing
    | Null
    | Bool(b: bool)
    | Num(n: int)
    | Str(s: string)
    | Arr(elems: seq<Json>)
    | Obj(fields: map<string, Json>)

  /** JavaScript truthiness: empty arrays and objects are truthy, `0` and `""` are not. */
  predicate Truthy(v: Json) {
    match v
    case Missing => false
    case Null => false
    case Bool(b) => b
    case Num(n) => n != 0
    case Str(s) => s != ""
    case Arr(_) => true
    case Obj(_) => true
  }

  /** `null` or `undefined`: reading a property of these throws a TypeError. */
  predicate Nullish(v: Json) {
    v.Missing? || v.Null?
  }

  /** `v?.k`: the property of an object, `undefined` for everything else. */
  function Get(v: Json, k: Key): (r: Json)
    ensures !v.Obj? ==> r == Missing
  {
    match v
    case Obj(m) => if KeyName(k) in m then m[KeyName(k)] else Missing
    case _ => Missing
  }

  /** `v?.k1?.k2?...`: a chain of optional reads; never throws. */
  function At(v: Json, path: seq<Key>): Json
    decreases |path|
  {
    if |path| == 0 then v else At(Get(v, path[0]), path[1..])
  }

  /** `v[0]` on a value that is neither `null` nor `undefined`. */
  function Index0(v: Json): Json
    requires !Nullish(v)
  {
    match v
    case Arr(xs) => if |xs| > 0 then xs[0] else Missing
    case Obj(m) => if "0" in m then m["0"] else Missing
    case Str(s) => if |s| > 0 then Str([s[0]]) else Missing
    case _ => Missing
  }

  /**
   * `for (const x of v)`: arrays yield their elements, strings their
   * characters; anything else is not iterable and throws (`None`).
   */
  function Iterate(v: Json): (r: Option<seq<Json>>)
    ensures r.Some? <==> v.Arr? || v.Str?
    ensures v.Arr? ==> r == Some(v.elems)
    ensures v.Str? ==> r.Some? && |r.value| == |v.s|
  {
    match v
    case Arr(xs) => Some(xs)
    case Str(s) => Some(seq(|s|, i requires 0 <= i < |s| => Str([s[i]])))
    case _ => None
  }

  /**
   * `v.includes(needle)`: a substring search on strings, an element search
   * on arrays; on anything else `includes` is not a function and the call
   * throws (`None`).
   */
  function ValueIncludes(v: Json, needle: string): (r: Option<bool>)
    ensures r.Some? <==> v.Str? || v.Arr?
    ensures v.Str? ==> r == Some(Includes(v.s, needle))
    ensures v.Arr? ==> r == Some(Str(needle) in v.elems)
  {
    match v
    case Str(s) => Some(Includes(s, needle))
    case Arr(xs) => Some(Str(needle) in xs)
    case _ => None
  }

  /**
   * `${v}` in a template literal: strings as they are, integers in decimal,
   * arrays joined with commas (with `null`/`undefined` elements printed
   * empty), objects as `[object Object]`.
   */
  function Display(v: Json): string
    decreases v
  {
    match v
    case Missing => "undefined"
    case Null => "null"
    case Bool(b) => if b then "true" else "false"
    case Num(n) => IntStr(n)
    case Str(s) => s
    case Arr(xs) =>
      Join(seq(|xs|, i requires 0 <= i < |xs| => if Nullish(xs[i]) then "" else Display(xs[i])), ',')
    case Obj(_) => "[object Object]"
  }
}

=== FILE: media_preview.dfy ===
/**
 * The media preview's selection: a set of positions in the media list,
 * toggled one at a time, filled or emptied at once, and turned into either
 * one ZIP request or one proxy download per item.
 */
module MediaPreview {
  import opened Base
  import opened Text
  import opened Json
  import opened Normalize
  import DownloadRoute

  /** Every selected position is a position of the list. */
  predicate InRange(sel: set<nat>, n: nat) {
    forall i :: i in sel ==> i < n
  }

  /** `toggleItem(index)`: flips `index`, leaves every other position as it was. */
  function Toggle(sel: set<nat>, index: nat): (r: set<nat>)
    ensures index in r <==> index !in sel
    ensures forall j :: j != index ==> (j in r <==> j in sel)
  {
    if index in sel then sel - {index} else sel + {index}
  }

  /** Toggling the same position twice restores the selection. */
  lemma ToggleTwice(sel: set<nat>, index: nat)
    ensures Toggle(Toggle(sel, index), index) == sel
  {
  }

  /** `selectAll`: every position of a list of `n` items. */
  function SelectAll(n: nat): (r: set<nat>)
    ensures forall i: nat :: i in r <==> i < n
    ensures |r| == n
  {
    if n == 0 then {} else SelectAll(n - 1) + {n - 1}
  }

  // ---------------------------------------------------------------------------
  // The selected media

  /** The selected positions in `from..n`, in increasing order. */
  function Chosen(sel: set<nat>, from: nat, n: nat): (r: seq<nat>)
    ensures forall k :: 0 <= k < |r| ==> from <= r[k] < n && r[k] in sel
    ensures forall i :: from <= i < n && i in sel ==> i in r
    ensures forall k, l :: 0 <= k < l < |r| ==> r[k] < r[l]
    decreases n - from
  {
    if from >= n then []
    else if from in sel then [from] + Chosen(sel, from + 1, n)
    else Chosen(sel, from + 1, n)
  }

  /**
   * `media.filter((_, index) => selectedItems.has(index))`: the selected
   * items in list order, whatever order they were selected in.
   */
  function Picked(media: seq<Media>, sel: set<nat>): (r: seq<Media>)
    ensures var idx := Chosen(sel, 0, |media|);
            |r| == |idx| && forall k :: 0 <= k < |r| ==> r[k] == media[idx[k]]
  {
    var idx := Chosen(sel, 0, |media|);
    seq(|idx|, k requires 0 <= k < |idx| => media[idx[k]])
  }

  /** The selected positions below `n` from `from` on. */
  function Window(sel: set<nat>, from: nat, n: nat): set<nat> {
    set i | i in sel && from <= i < n
  }

  /** The chosen positions are exactly the selected ones, one each. */
  lemma {:induction false} ChosenCount(sel: set<nat>, from: nat, n: nat)
    ensures |Chosen(sel, from, n)| == |Window(sel, from, n)|
    decreases n - from
  {
    if from >= n {
      assert Window(sel, from, n) == {};
    } else {
      ChosenCount(sel, from + 1, n);
      if from in sel {
        assert Window(sel, from, n) == Window(sel, from + 1, n) + {from};
      } else {
        assert Window(sel, from, n) == Window(sel, from + 1, n);
      }
    }
  }

  /** A selection made from the list's own positions picks one item per selected position. */
  lemma PickedCount(media: seq<Media>, sel: set<nat>)
    requires InRange(sel, |media|)
    ensures |Picked(media, sel)| == |sel|
  {
    ChosenCount(sel, 0, |media|);
    assert Window(sel, 0, |media|) == sel;
  }

  /** Selecting everything picks the whole list. */
  lemma PickAll(media: seq<Media>)
    ensures Picked(media, SelectAll(|media|)) == media
  {
    var idx := Chosen(SelectAll(|media|), 0, |media|);
    ChosenCount(SelectAll(|media|), 0, |media|);
    assert Window(SelectAll(|media|), 0, |media|) == SelectAll(|media|);
    ChosenIdentity(idx, |media|);
  }

  /** A strictly increasing sequence of `n` positions below `n` is `0, 1, ..., n-1`. */
  lemma ChosenIdentity(idx: seq<nat>, n: nat)
    requires |idx| == n
    requires forall k :: 0 <= k < |idx| ==> idx[k] < n
    requires forall k, l :: 0 <= k < l < |idx| ==> idx[k] < idx[l]
    ensures forall k :: 0 <= k < n ==> idx[k] == k
  {
    forall k | 0 <= k < n
      ensures idx[k] == k
    {
      IncreasingFloor(idx, k);
      IncreasingCeiling(idx, n, k);
    }
  }

  /** The `k`-th of increasing naturals is at least `k`. */
  lemma {:induction false} IncreasingFloor(idx: seq<nat>, k: nat)
    requires k < |idx|
    requires forall a, b :: 0 <= a < b < |idx| ==> idx[a] < idx[b]
    ensures idx[k] >= k
  {
    if k > 0 {
      IncreasingFloor(idx, k - 1);
    }
  }

  /** The `k`-th of `n` increasing naturals below `n` is at most `k`. */
  lemma {:induction false} IncreasingCeiling(idx: seq<nat>, n: nat, k: nat)
    requires |idx| == n && k < n
    requires forall a :: 0 <= a < |idx| ==> idx[a] < n
    requires forall a, b :: 0 <= a < b < |idx| ==> idx[a] < idx[b]
    ensures idx[k] <= k
    decreases n - k
  {
    if k < n - 1 {
      IncreasingCeiling(idx, n, k + 1);
    }
  }

  // ---------------------------------------------------------------------------
  // ZIP or one by one

  /** The third `-`-separated field of a file name, when there is one. */
  function TitleField(filename: string): (r: Option<string>)
    ensures r.Some? <==> |Split(filename, '-')| > 2
    ensures r.Some? ==> '-' !in r.value
  {
    var parts := Split(filename, '-');
    if |parts| > 2 then Some(parts[2]) else None
  }

  /** What `downloadSelected` does with the current selection. */
  datatype Plan =
    | Nothing
    | ZipRequest(items: seq<Media>, title: Option<string>)
    | OneByOne(items: seq<Media>)

  /**
   * Nothing for an empty selection; a ZIP request when more than one item
   * is picked and the first one's name contains `highlight`; otherwise one
   * download per picked item.
   */
  function PlanFor(media: seq<Media>, sel: set<nat>): (p: Plan)
    ensures p.Nothing? <==> sel == {}
    ensures !p.Nothing? ==> (p.ZipRequest? || p.OneByOne?) && p.items == Picked(media, sel)
    ensures p.ZipRequest? <==> sel != {} && |Picked(media, sel)| > 1 && Includes(Picked(media, sel)[0].filename, "highlight")
    ensures p.ZipRequest? ==> p.title == TitleField(p.items[0].filename)
  {
    if |sel| == 0 then Nothing
    else
      var picked := Picked(media, sel);
      if |picked| > 1 && Includes(picked[0].filename, "highlight") then ZipRequest(picked, TitleField(picked[0].filename))
      else OneByOne(picked)
  }

  /**
   * The client reads back the title the download route put in a highlight
   * file name, provided the title has no `-` of its own.
   */
  lemma HighlightTitleRoundTrip(title: string, ts: nat, n: nat, kind: Kind)
    requires '-' !in title
    ensures TitleField(IndexedName(DownloadRoute.HighlightBase(Str(title), ts), n, kind)) == Some(title)
  {
    var tail := NatStr(n) + Ext(kind);
    var parts := ["instagram", "highlight", title, NatStr(ts), tail];
    NatStrNoDash(ts);
    NatStrNoDash(n);
    ExtNoDash(kind);
    HighlightNameFields(title, ts, n, kind);
    SplitJoin(parts, '-');
  }

  /** A highlight file name is its five fields joined by `-`. */
  lemma HighlightNameFields(title: string, ts: nat, n: nat, kind: Kind)
    ensures Join(["instagram", "highlight", title, NatStr(ts), NatStr(n) + Ext(kind)], '-')
      == IndexedName(DownloadRoute.HighlightBase(Str(title), ts), n, kind)
  {
    var a, b, d, e := "instagram", "highlight", NatStr(ts), NatStr(n) + Ext(kind);
    JoinFive(a, b, title, d, e);
    assert "instagram-highlight-" == a + "-" + b + "-";
    assert IndexedName(DownloadRoute.HighlightBase(Str(title), ts), n, kind)
      == ("instagram-highlight-" + title + "-" + d) + "-" + NatStr(n) + Ext(kind);
  }

  /** Five fields joined by `-`. */
  lemma JoinFive(a: string, b: string, c: string, d: string, e: string)
    ensures Join([a, b, c, d, e], '-') == a + "-" + b + "-" + c + "-" + d + "-" + e
  {
    assert [a, b, c, d, e][1..] == [b, c, d, e];
    assert [b, c, d, e][1..] == [c, d, e];
    assert [c, d, e][1..] == [d, e];
    assert [d, e][1..] == [e];
    assert Join([d, e], '-') == d + "-" + e;
    assert Join([c, d, e], '-') == c + "-" + (d + "-" + e);
    assert Join([b, c, d, e], '-') == b + "-" + (c + "-" + (d + "-" + e));
    assert Join([a, b, c, d, e], '-') == a + "-" + (b + "-" + (c + "-" + (d + "-" + e)));
  }

  /** An extension holds no `-`. */
  lemma ExtNoDash(kind: Kind)
    ensures '-' !in Ext(kind)
  {
  }

  /** Decimal digits hold no `-`. */
  lemma NatStrNoDash(n: nat)
    ensures '-' !in NatStr(n)
  {
    forall k | 0 <= k < |NatStr(n)|
      ensures NatStr(n)[k] != '-'
    {
      assert IsDigit(NatStr(n)[k]);
    }
  }

  /**
   * The individual downloads: one proxy request per item in order, stopping
   * at the first failed one. Gives the number of requests made and whether
   * all succeeded.
   */
  function Individually(items: seq<Media>, ok: Media -> bool): (r: (nat, bool))
    ensures r.1 <==> forall i :: 0 <= i < |items| ==> ok(items[i])
    ensures r.1 ==> r.0 == |items|
    ensures !r.1 ==> 1 <= r.0 <= |items| && !ok(items[r.0 - 1]) && forall i :: 0 <= i < r.0 - 1 ==> ok(items[i])
    decreases |items|
  {
    if |items| == 0 then (0, true)
    else if !ok(items[0]) then (1, false)
    else
      var r := Individually(items[1..], ok);
      assert forall i :: 1 <= i < |items| ==> items[i] == items[1..][i - 1];
      (r.0 + 1, r.1)
  }

  /**
   * The selection after `downloadSelected`: cleared when every request
   * succeeded, untouched when one failed or there was nothing to do.
   */
  function AfterDownload(media: seq<Media>, sel: set<nat>, zipOk: bool, ok: Media -> bool): (r: set<nat>)
    ensures sel == {} ==> r == sel
    ensures r == {} || r == sel
    ensures PlanFor(media, sel).ZipRequest? ==> (r == {} <==> zipOk)
    ensures PlanFor(media, sel).OneByOne? && r != {} ==> exists m :: m in PlanFor(media, sel).items && !ok(m)
    ensures PlanFor(media, sel).OneByOne? && (forall m :: m in PlanFor(media, sel).items ==> ok(m)) ==> r == {}
  {
    match PlanFor(media, sel)
    case Nothing => sel
    case ZipRequest(_, _) => if zipOk then {} else sel
    case OneByOne(items) =>
      var r := Individually(items, ok);
      if r.1 then {} else
        assert items[r.0 - 1] in items;
        sel
  }

  // ---------------------------------------------------------------------------
  // The selection as a state machine

  /** What the user can do in the preview; `Pick` comes from an item's own checkbox. */
  datatype Action = Pick(index: nat) | PickAll | ClearAll | Download(zipOk: bool, ok: Media -> bool)

  /** Whether the preview offers the action for a list of `n` items. */
  predicate Offered(a: Action, n: nat) {
    a.Pick? ==> a.index < n
  }

  /** The selection after one action. */
  function Step(media: seq<Media>, sel: set<nat>, a: Action): (r: set<nat>)
    requires Offered(a, |media|)
    ensures InRange(sel, |media|) ==> InRange(r, |media|)
  {
    match a
    case Pick(i) => Toggle(sel, i)
    case PickAll => SelectAll(|media|)
    case ClearAll => {}
    case Download(zipOk, ok) => AfterDownload(media, sel, zipOk, ok)
  }

  /** The selection after a run of actions from the empty selection. */
  function Run(media: seq<Media>, acts: seq<Action>): (r: set<nat>)
    requires forall k :: 0 <= k < |acts| ==> Offered(acts[k], |media|)
    ensures InRange(r, |media|)
    decreases |acts|
  {
    if |acts| == 0 then {}
    else Step(media, Run(media, acts[..|acts| - 1]), acts[|acts| - 1])
  }

  /** However the user got there, the picked items are as many as the selected positions. */
  lemma PickedMatchesCount(media: seq<Media>, acts: seq<Action>)
    requires forall k :: 0 <= k < |acts| ==> Offered(acts[k], |media|)
    ensures |Picked(media, Run(media, acts))| == |Run(media, acts)|
  {
    PickedCount(media, Run(media, acts));
  }
}

=== FILE: normalize.dfy ===
/**
 * The per-kind normalisers of the download route: they turn upstream item
 * bodies into ordered media records with synthesised file names. Story,
 * highlight and carousel items share one walk (image before video, a running
 * file index); reels name their records without an index; posts fall back
 * to generic `{url, type, quality}` shapes when the native shape gives
 * nothing.
 */
module Normalize {
  import opened Base
  import opened Text
  import opened Json

  datatype Kind = Image | Video

  /** `InstagramMedia`: `width`, `height` and `coverUrl` are whatever the upstream held (possibly `undefined`). */
  datatype Media = Media(
    url: Json,
    kind: Kind,
    quality: Json,
    filename: string,
    width: Json,
    height: Json,
    coverUrl: Json)

  function Ext(kind: Kind): string {
    match kind
    case Image => ".jpg"
    case Video => ".mp4"
  }

  /** A record the route can hand out: a truthy url and a file name starting with `base`. */
  predicate WellFormed(m: Media, base: string) {
    Truthy(m.url) && StartsWith(m.filename, base)
  }

  // ---------------------------------------------------------------------------
  // One native item: `image_versions2.candidates[0]` and `video_versions[0]`

  /** `item.image_versions2 && item.image_versions2.candidates` */
  predicate HasCandidates(item: Json) {
    Truthy(Get(item, ImageVersions2)) && Truthy(Get(Get(item, ImageVersions2), Candidates))
  }

  /** `item.image_versions2.candidates[0]` */
  function FirstCandidate(item: Json): Json
    requires HasCandidates(item)
  {
    Index0(Get(Get(item, ImageVersions2), Candidates))
  }

  /** `item.video_versions && Array.isArray(item.video_versions)` (arrays are always truthy). */
  predicate HasVideoVersions(item: Json) {
    Get(item, VideoVersions).Arr?
  }

  /** `item.video_versions[0]` */
  function FirstVideo(item: Json): Json
    requires HasVideoVersions(item)
  {
    Index0(Get(item, VideoVersions))
  }

  /** `best && best.url` */
  predicate Usable(best: Json) {
    Truthy(best) && Truthy(Get(best, Url))
  }

  /** A record for `best` with quality `hd`; the file name is given later. */
  function Record(best: Json, kind: Kind, cover: Json): Media {
    Media(Get(best, Url), kind, Str("hd"), "", Get(best, Width), Get(best, Height), cover)
  }

  /** The image record of an item: present iff the first candidate has a url. */
  function ImagePart(item: Json): (r: seq<Media>)
    ensures |r| <= 1
    ensures |r| == 1 <==> HasCandidates(item) && Usable(FirstCandidate(item))
    ensures |r| == 1 ==> r[0] == Record(FirstCandidate(item), Image, Missing)
  {
    if HasCandidates(item) && Usable(FirstCandidate(item)) then [Record(FirstCandidate(item), Image, Missing)] else []
  }

  /**
   * Where a video record's `coverUrl` comes from: nowhere (highlights,
   * carousels), the first image candidate's url whenever that candidate is
   * truthy (stories), or the url of the image record pushed just before
   * (reels).
   */
  datatype CoverRule = NoCover | FirstCandidateUrl | PushedImageUrl

  function Cover(item: Json, rule: CoverRule): Json {
    match rule
    case NoCover => Missing
    case FirstCandidateUrl =>
      if HasCandidates(item) && Truthy(FirstCandidate(item)) then Get(FirstCandidate(item), Url) else Missing
    case PushedImageUrl =>
      var img := ImagePart(item);
      if |img| == 1 then img[0].url else Missing
  }

  /** The video record of an item: present iff `video_versions` is an array whose first element has a url. */
  function VideoPart(item: Json, rule: CoverRule): (r: seq<Media>)
    ensures |r| <= 1
    ensures |r| == 1 <==> HasVideoVersions(item) && Usable(FirstVideo(item))
    ensures |r| == 1 ==> r[0] == Record(FirstVideo(item), Video, Cover(item, rule))
  {
    if HasVideoVersions(item) && Usable(FirstVideo(item)) then
      [Record(FirstVideo(item), Video, Cover(item, rule))]
    else
      []
  }

  /** What one native item contributes: its image, then its video. */
  function ItemMedia(item: Json, rule: CoverRule): (r: seq<Media>)
    ensures |r| <= 2
    ensures forall j :: 0 <= j < |r| ==> Truthy(r[j].url) && r[j].quality == Str("hd")
    ensures forall i, j :: 0 <= i < j < |r| ==> r[i].kind == Image && r[j].kind == Video
    ensures forall j :: 0 <= j < |r| && r[j].kind == Image ==> r[j].coverUrl == Missing
  {
    ImagePart(item) + VideoPart(item, rule)
  }

  /**
   * A story item with both records: the video's cover is the url of the
   * image record that was also emitted on its own.
   */
  lemma StoryCoverIsStandaloneImage(item: Json)
    requires |ItemMedia(item, FirstCandidateUrl)| == 2
    ensures var r := ItemMedia(item, FirstCandidateUrl);
            r[0].kind == Image && r[1].kind == Video && r[1].coverUrl == r[0].url
  {
    assert |ImagePart(item)| == 1 && |VideoPart(item, FirstCandidateUrl)| == 1;
  }

  /**
   * A story video's cover is the first candidate's url even when that url is
   * falsy and no image record was emitted.
   */
  lemma StoryCoverWithoutImage(item: Json)
    requires HasCandidates(item) && Truthy(FirstCandidate(item)) && !Truthy(Get(FirstCandidate(item), Url))
    requires HasVideoVersions(item) && Usable(FirstVideo(item))
    ensures var r := ItemMedia(item, FirstCandidateUrl);
            |r| == 1 && r[0].kind == Video && r[0].coverUrl == Get(FirstCandidate(item), Url)
  {
    assert |ImagePart(item)| == 0;
  }

  // ---------------------------------------------------------------------------
  // The indexed walk shared by stories, highlights and carousels

  /** `<base>-<n><ext>` */
  function IndexedName(base: string, n: nat, kind: Kind): string {
    base + "-" + NatStr(n) + Ext(kind)
  }

  /** Gives the records consecutive indices from `next`, in order. */
  function Named(ms: seq<Media>, base: string, next: nat): (r: seq<Media>)
    ensures |r| == |ms|
    ensures forall j :: 0 <= j < |ms| ==> r[j] == ms[j].(filename := IndexedName(base, next + j, ms[j].kind))
  {
    seq(|ms|, j requires 0 <= j < |ms| => ms[j].(filename := IndexedName(base, next + j, ms[j].kind)))
  }

  /** Naming a concatenation names the second part from where the first stopped. */
  lemma NamedAppend(a: seq<Media>, b: seq<Media>, base: string, next: nat)
    ensures Named(a + b, base, next) == Named(a, base, next) + Named(b, base, next + |a|)
  {
  }

  /** Everything the items contribute, item by item. */
  function Contents(items: seq<Json>, rule: CoverRule): seq<Media>
    decreases |items|
  {
    if |items| == 0 then [] else ItemMedia(items[0], rule) + Contents(items[1..], rule)
  }

  /** Index of the first `null`/`undefined` item (reading a property of it throws), or `|items|`. */
  function FirstNullish(items: seq<Json>): (k: nat)
    ensures k <= |items|
    ensures k < |items| ==> Nullish(items[k])
    ensures forall j :: 0 <= j < k ==> !Nullish(items[j])
    decreases |items|
  {
    if |items| == 0 then 0 else if Nullish(items[0]) then 0 else 1 + FirstNullish(items[1..])
  }

  /** The records pushed by a walk, and whether it stopped on a thrown TypeError. */
  datatype Walk = Walk(pushed: seq<Media>, failed: bool)

  /**
   * `for (const item of items)`: each item pushes its image record then its
   * video record, each named with the running index, which starts at `next`
   * and grows by one per push. A `null`/`undefined` item throws; the records
   * pushed before it stay pushed.
   */
  function ItemLoop(items: seq<Json>, base: string, rule: CoverRule, next: nat): (w: Walk)
    ensures w.failed <==> exists k :: 0 <= k < |items| && Nullish(items[k])
    ensures w.pushed == Named(Contents(items[..FirstNullish(items)], rule), base, next)
    decreases |items|
  {
    if |items| == 0 then
      Walk([], false)
    else if Nullish(items[0]) then
      Walk([], true)
    else
      var named := PushItem(items[0], base, rule, next);
      var rest := ItemLoop(items[1..], base, rule, next + |named|);
      ItemLoopStep(items, base, rule, next, named, rest);
      Walk(named + rest.pushed, rest.failed)
  }

  /**
   * The pushes of one item, each named with the running index: the image
   * takes `next`, the video the index after whatever the image took.
   */
  function PushItem(item: Json, base: string, rule: CoverRule, next: nat): (r: seq<Media>)
    ensures r == Named(ItemMedia(item, rule), base, next)
  {
    var img := ImagePart(item);
    var vid := VideoPart(item, rule);
    (if |img| == 1 then [img[0].(filename := IndexedName(base, next, Image))] else [])
    + (if |vid| == 1 then [vid[0].(filename := IndexedName(base, next + |img|, Video))] else [])
  }

  /** One step of the walk: the head item's named records followed by the tail's. */
  lemma ItemLoopStep(items: seq<Json>, base: string, rule: CoverRule, next: nat, named: seq<Media>, rest: Walk)
    requires |items| > 0 && !Nullish(items[0])
    requires named == Named(ItemMedia(items[0], rule), base, next)
    requires rest.pushed == Named(Contents(items[1..][..FirstNullish(items[1..])], rule), base, next + |named|)
    requires rest.failed <==> exists k :: 0 <= k < |items| - 1 && Nullish(items[1..][k])
    ensures named + rest.pushed == Named(Contents(items[..FirstNullish(items)], rule), base, next)
    ensures rest.failed <==> exists k :: 0 <= k < |items| && Nullish(items[k])
  {
    ContentsBeforeNullish(items, rule);
    NamedConcat(ItemMedia(items[0], rule), Contents(items[1..][..FirstNullish(items[1..])], rule),
                Contents(items[..FirstNullish(items)], rule), named, rest.pushed, base, next);
    NullishShift(items);
  }

  /** The head's named records followed by the tail's, named on from there, name the whole. */
  lemma NamedConcat(head: seq<Media>, tail: seq<Media>, whole: seq<Media>, named: seq<Media>, pushed: seq<Media>, base: string, next: nat)
    requires whole == head + tail
    requires named == Named(head, base, next)
    requires pushed == Named(tail, base, next + |named|)
    ensures named + pushed == Named(whole, base, next)
  {
    NamedAppend(head, tail, base, next);
  }

  /** Past a head that is not `null`/`undefined`, the walked prefix is the head followed by the tail's walked prefix. */
  lemma ContentsBeforeNullish(items: seq<Json>, rule: CoverRule)
    requires |items| > 0 && !Nullish(items[0])
    ensures Contents(items[..FirstNullish(items)], rule)
      == ItemMedia(items[0], rule) + Contents(items[1..][..FirstNullish(items[1..])], rule)
  {
    var f := FirstNullish(items);
    assert f == 1 + FirstNullish(items[1..]);
    var pre := items[..f];
    assert pre[0] == items[0];
    assert pre[1..] == items[1..][..f - 1];
  }

  /** Past a head that is not `null`/`undefined`, the list has such an item exactly when its tail does. */
  lemma NullishShift(items: seq<Json>)
    requires |items| > 0 && !Nullish(items[0])
    ensures (exists k :: 0 <= k < |items| && Nullish(items[k])) <==> (exists k :: 0 <= k < |items| - 1 && Nullish(items[1..][k]))
  {
    if k :| 0 <= k < |items| && Nullish(items[k]) {
      assert items[1..][k - 1] == items[k];
    }
    if k :| 0 <= k < |items| - 1 && Nullish(items[1..][k]) {
      assert items[k + 1] == items[1..][k];
    }
  }

  /** Every record a walk pushes is well formed, with an index from `next` on. */
  lemma ItemLoopWellFormed(items: seq<Json>, base: string, rule: CoverRule, next: nat)
    ensures forall j :: 0 <= j < |ItemLoop(items, base, rule, next).pushed| ==>
              var m := ItemLoop(items, base, rule, next).pushed[j];
              WellFormed(m, base) && m.filename == IndexedName(base, next + j, m.kind)
  {
    var w := ItemLoop(items, base, rule, next);
    var c := Contents(items[..FirstNullish(items)], rule);
    ContentsTruthy(items[..FirstNullish(items)], rule);
    forall j | 0 <= j < |w.pushed|
      ensures WellFormed(w.pushed[j], base) && w.pushed[j].filename == IndexedName(base, next + j, w.pushed[j].kind)
    {
      IndexedNameStartsWithBase(base, next + j, c[j].kind);
    }
  }

  /** An indexed name starts with its base. */
  lemma IndexedNameStartsWithBase(base: string, n: nat, kind: Kind)
    ensures StartsWith(IndexedName(base, n, kind), base)
  {
    assert IndexedName(base, n, kind) == base + ("-" + NatStr(n) + Ext(kind));
    StartsWithAppend(base, "-" + NatStr(n) + Ext(kind));
  }

  /** Every contributed record has a truthy url. */
  lemma {:induction false} ContentsTruthy(items: seq<Json>, rule: CoverRule)
    ensures forall j :: 0 <= j < |Contents(items, rule)| ==> Truthy(Contents(items, rule)[j].url)
    decreases |items|
  {
    if |items| > 0 {
      ContentsTruthy(items[1..], rule);
    }
  }

  /**
   * Items with nothing usable push nothing and take no index: a story of
   * two items where only the second has media names its records from 1.
   */
  lemma EmptyItemTakesNoIndex(a: Json, b: Json, base: string, rule: CoverRule)
    requires !Nullish(a) && !Nullish(b) && |ItemMedia(a, rule)| == 0
    ensures ItemLoop([a, b], base, rule, 1).pushed == Named(ItemMedia(b, rule), base, 1)
  {
    var items := [a, b];
    assert items[1..] == [b] && [b][1..] == [];
    assert FirstNullish(items) == 2;
    assert items[..2] == items;
    assert Contents([b], rule) == ItemMedia(b, rule);
    assert Contents(items, rule) == ItemMedia(b, rule);
  }

  // ---------------------------------------------------------------------------
  // Reels

  /**
   * The reel normaliser: at most an image then a video, the video's cover
   * being the image record's url; names carry the shortcode and the
   * timestamp but no index. A `null`/`undefined` body throws (`None`).
   */
  function ReelRecords(data: Json, shortcode: string, ts: nat): (r: Option<seq<Media>>)
    ensures r.None? <==> Nullish(data)
    ensures r.Some? ==> |r.value| <= 2
    ensures r.Some? ==> forall i, j :: 0 <= i < j < |r.value| ==> r.value[i].kind == Image && r.value[j].kind == Video
    ensures r.Some? ==> forall j :: 0 <= j < |r.value| ==>
              r.value[j].filename == ReelName(shortcode, ts, r.value[j].kind)
              && WellFormed(r.value[j], "instagram-reel-")
    ensures r.Some? ==> |r.value| == |ItemMedia(data, PushedImageUrl)|
    ensures r.Some? ==> forall j :: 0 <= j < |r.value| ==>
              r.value[j] == ItemMedia(data, PushedImageUrl)[j].(filename := ReelName(shortcode, ts, r.value[j].kind))
  {
    if Nullish(data) then None
    else
      var ms := ItemMedia(data, PushedImageUrl);
      ReelNamesWellFormed(shortcode, ts);
      Some(seq(|ms|, j requires 0 <= j < |ms| => ms[j].(filename := ReelName(shortcode, ts, ms[j].kind))))
  }

  /** `instagram-reel-<shortcode>-<ts><ext>` */
  function ReelName(shortcode: string, ts: nat, kind: Kind): string {
    "instagram-reel-" + shortcode + "-" + NatStr(ts) + Ext(kind)
  }

  /** Reel names start with `instagram-reel-`. */
  lemma ReelNamesWellFormed(shortcode: string, ts: nat)
    ensures forall kind :: StartsWith(ReelName(shortcode, ts, kind), "instagram-reel-")
  {
    forall kind
      ensures StartsWith(ReelName(shortcode, ts, kind), "instagram-reel-")
    {
      assert ReelName(shortcode, ts, kind) == "instagram-reel-" + (shortcode + "-" + NatStr(ts) + Ext(kind));
      StartsWithAppend("instagram-reel-", shortcode + "-" + NatStr(ts) + Ext(kind));
    }
  }

  /** A reel video's cover is the url of the reel's image record, or absent when there is none. */
  lemma ReelCoverIsImage(data: Json, shortcode: string, ts: nat)
    requires !Nullish(data)
    ensures var r := ReelRecords(data, shortcode, ts).value;
            forall j :: 0 <= j < |r| && r[j].kind == Video ==>
              r[j].coverUrl == (if j == 1 then r[0].url else Missing)
  {
    var img := ImagePart(data);
    var vid := VideoPart(data, PushedImageUrl);
    assert ItemMedia(data, PushedImageUrl) == img + vid;
  }

  // ---------------------------------------------------------------------------
  // Posts: native shapes

  /** `instagram-<shortcode || 'content'>-<ts>` */
  function PostBase(shortcode: Option<string>, ts: nat): string {
    "instagram-" + (if shortcode.Some? && shortcode.value != "" then shortcode.value else "content") + "-" + NatStr(ts)
  }

  /** `records` named `<base><ext>`, as the single-image and single-video posts are. */
  function SingleNamed(records: seq<Media>, base: string): seq<Media> {
    seq(|records|, j requires 0 <= j < |records| => records[j].(filename := base + Ext(records[j].kind)))
  }

  /**
   * The native post ladder: a `carousel_media` array is walked like a story
   * (no covers); otherwise a single image; otherwise a single video.
   * `None` when the carousel walk throws.
   */
  function Primary(data: Json, base: string): (r: Option<seq<Media>>)
    requires !Nullish(data)
  {
    var carousel := Get(data, CarouselMedia);
    if carousel.Arr? then
      var w := ItemLoop(carousel.elems, base, NoCover, 1);
      if w.failed then None else Some(w.pushed)
    else if HasCandidates(data) then
      Some(SingleNamed(ImagePart(data), base))
    else if HasVideoVersions(data) then
      Some(SingleNamed(VideoPart(data, NoCover), base))
    else
      Some([])
  }

  /** The native ladder's records are well formed. */
  lemma PrimaryWellFormed(data: Json, base: string)
    requires !Nullish(data)
    ensures Primary(data, base).Some? ==> forall m :: m in Primary(data, base).value ==> WellFormed(m, base)
  {
    var carousel := Get(data, CarouselMedia);
    if carousel.Arr? {
      ItemLoopWellFormed(carousel.elems, base, NoCover, 1);
    } else {
      assert forall m :: m in SingleNamed(ImagePart(data), base) ==> m.filename == base + ".jpg";
      assert forall m :: m in SingleNamed(VideoPart(data, NoCover), base) ==> m.filename == base + ".mp4";
    }
  }

  /**
   * A `carousel_media` array shadows the single-image and single-video
   * branches: every native record then carries an index, never the bare
   * `<base>.jpg` / `<base>.mp4` names.
   */
  lemma CarouselShadowsSingle(data: Json, base: string)
    requires !Nullish(data) && Get(data, CarouselMedia).Arr?
    ensures Primary(data, base).Some? ==> forall j :: 0 <= j < |Primary(data, base).value| ==>
              var m := Primary(data, base).value[j];
              m.filename == IndexedName(base, 1 + j, m.kind)
  {
    ItemLoopWellFormed(Get(data, CarouselMedia).elems, base, NoCover, 1);
  }

  // ---------------------------------------------------------------------------
  // Posts: generic fallback shapes

  /** Items of the generic shapes the loop keeps: those with a truthy `url`. */
  function Kept(items: seq<Json>): (r: seq<Json>)
    ensures |r| <= |items|
    ensures forall x :: x in r ==> x in items && Truthy(Get(x, Url))
    ensures forall i :: 0 <= i < |items| && Truthy(Get(items[i], Url)) ==> items[i] in r
    decreases |items|
  {
    if |items| == 0 then []
    else
      var rest := Kept(items[1..]);
      assert forall i :: 1 <= i < |items| ==> items[i] == items[1..][i - 1];
      (if Truthy(Get(items[0], Url)) then [items[0]] else []) + rest
  }

  /** Keeping works piecewise on a concatenation, so the kept items stay in list order. */
  lemma {:induction false} KeptAppend(a: seq<Json>, b: seq<Json>)
    ensures Kept(a + b) == Kept(a) + Kept(b)
    decreases |a|
  {
    if |a| > 0 {
      assert (a + b)[0] == a[0] && (a + b)[1..] == a[1..] + b;
      KeptAppend(a[1..], b);
    } else {
      assert a + b == b;
    }
  }

  /** An item the generic loop throws on: `null`/`undefined`, or a truthy url without an `includes` method. */
  predicate Throws(item: Json) {
    var u := Get(item, Url);
    Nullish(item) || (Truthy(u) && !(u.Str? || u.Arr?))
  }

  /**
   * One generic record. The type is `video` when `type === 'video'` or the
   * url contains `.mp4`; the extension looks at `.mp4` only.
   */
  function GenericRecord(item: Json, base: string, n: nat): Media
    requires !Throws(item) && Truthy(Get(item, Url))
  {
    var u := Get(item, Url);
    var mp4 := ValueIncludes(u, ".mp4").value;
    var q := Get(item, Quality);
    Media(
      u,
      if Get(item, Type) == Str("video") || mp4 then Video else Image,
      if Truthy(q) then q else Str("hd"),
      base + "-" + NatStr(n) + (if mp4 then ".mp4" else ".jpg"),
      Get(item, Width), Get(item, Height), Missing)
  }

  /**
   * `for (const item of items) if (item.url) media.push(...)`, the index
   * being `media.length + 1` at each push. `None` when an item throws.
   */
  function GenericList(items: seq<Json>, base: string, next: nat): (r: Option<seq<Media>>)
    ensures r.None? <==> exists k :: 0 <= k < |items| && Throws(items[k])
    decreases |items|
  {
    if |items| == 0 then
      Some([])
    else if Nullish(items[0]) then
      None
    else if !Truthy(Get(items[0], Url)) then
      var r := GenericList(items[1..], base, next);
      GenericListShift(items);
      r
    else if !(Get(items[0], Url).Str? || Get(items[0], Url).Arr?) then
      None
    else
      var m := GenericRecord(items[0], base, next);
      var rest := GenericList(items[1..], base, next + 1);
      GenericListShift(items);
      if rest.None? then None else Some([m] + rest.value)
  }

  /** Throwing items of the tail are throwing items of the list, and the kept items shift by one. */
  lemma GenericListShift(items: seq<Json>)
    requires |items| > 0 && !Throws(items[0])
    ensures (exists k :: 0 <= k < |items| && Throws(items[k])) <==> (exists k :: 0 <= k < |items| - 1 && Throws(items[1..][k]))
    ensures Kept(items) == (if Truthy(Get(items[0], Url)) then [items[0]] else []) + Kept(items[1..])
  {
    if k :| 0 <= k < |items| && Throws(items[k]) {
      assert items[1..][k - 1] == items[k];
    }
    if k :| 0 <= k < |items| - 1 && Throws(items[1..][k]) {
      assert items[k + 1] == items[1..][k];
    }
  }

  /** `r[j]` is the record of the `j`-th kept item, indexed from `next`. */
  ghost predicate KeptIndexed(r: seq<Media>, kept: seq<Json>, base: string, next: nat) {
    && |r| == |kept|
    && forall j :: 0 <= j < |r| ==> !Throws(kept[j]) && Truthy(Get(kept[j], Url)) && r[j] == GenericRecord(kept[j], base, next + j)
  }

  /** Prepending a record for a kept item keeps the indexing consecutive. */
  lemma KeptIndexedCons(x: Json, r: seq<Media>, kept: seq<Json>, base: string, next: nat)
    requires !Throws(x) && Truthy(Get(x, Url))
    requires KeptIndexed(r, kept, base, next + 1)
    ensures KeptIndexed([GenericRecord(x, base, next)] + r, [x] + kept, base, next)
  {
    var r' := [GenericRecord(x, base, next)] + r;
    var kept' := [x] + kept;
    forall j | 0 < j < |r'|
      ensures !Throws(kept'[j]) && Truthy(Get(kept'[j], Url)) && r'[j] == GenericRecord(kept'[j], base, next + j)
    {
      assert r'[j] == r[j - 1] && kept'[j] == kept[j - 1];
    }
  }

  /** A head item with a truthy url becomes the first record, indexed `next`. */
  lemma GenericListCons(items: seq<Json>, base: string, next: nat)
    requires |items| > 0 && !Throws(items[0]) && Truthy(Get(items[0], Url))
    requires GenericList(items, base, next).Some?
    ensures GenericList(items[1..], base, next + 1).Some?
    ensures GenericList(items, base, next).value
      == [GenericRecord(items[0], base, next)] + GenericList(items[1..], base, next + 1).value
  {
  }

  /**
   * The generic loop skips items without a url and indexes the rest
   * consecutively: its records are the kept items, each made into a record
   * with index `next + j`.
   */
  lemma {:induction false} GenericListIsKeptIndexed(items: seq<Json>, base: string, next: nat)
    requires GenericList(items, base, next).Some?
    ensures KeptIndexed(GenericList(items, base, next).value, Kept(items), base, next)
    decreases |items|, 1
  {
    if |items| > 0 {
      if Truthy(Get(items[0], Url)) {
        KeptIndexedTake(items, base, next);
      } else {
        KeptIndexedSkip(items, base, next);
      }
    }
  }

  /** The inductive step for a head item that is kept. */
  lemma {:induction false} KeptIndexedTake(items: seq<Json>, base: string, next: nat)
    requires |items| > 0 && Truthy(Get(items[0], Url))
    requires GenericList(items, base, next).Some?
    ensures KeptIndexed(GenericList(items, base, next).value, Kept(items), base, next)
    decreases |items|, 0
  {
    GenericListShift(items);
    GenericListCons(items, base, next);
    GenericListIsKeptIndexed(items[1..], base, next + 1);
    KeptIndexedCons(items[0], GenericList(items[1..], base, next + 1).value, Kept(items[1..]), base, next);
  }

  /** The inductive step for a head item without a url. */
  lemma {:induction false} KeptIndexedSkip(items: seq<Json>, base: string, next: nat)
    requires |items| > 0 && !Truthy(Get(items[0], Url))
    requires GenericList(items, base, next).Some?
    ensures KeptIndexed(GenericList(items, base, next).value, Kept(items), base, next)
    decreases |items|, 0
  {
    GenericListShift(items);
    assert GenericList(items, base, next) == GenericList(items[1..], base, next);
    GenericListIsKeptIndexed(items[1..], base, next);
  }

  /** Every generic record is well formed and named with the running index. */
  lemma GenericListWellFormed(items: seq<Json>, base: string, next: nat)
    requires GenericList(items, base, next).Some?
    ensures forall m :: m in GenericList(items, base, next).value ==> WellFormed(m, base)
  {
    var r := GenericList(items, base, next).value;
    var kept := Kept(items);
    GenericListIsKeptIndexed(items, base, next);
    forall m | m in r
      ensures WellFormed(m, base)
    {
      var j :| 0 <= j < |r| && r[j] == m;
      GenericRecordWellFormed(kept[j], base, next + j);
    }
  }

  /** A generic record keeps the item's truthy url and is named under `base`. */
  lemma GenericRecordWellFormed(item: Json, base: string, n: nat)
    requires !Throws(item) && Truthy(Get(item, Url))
    ensures WellFormed(GenericRecord(item, base, n), base)
  {
    var mp4 := ValueIncludes(Get(item, Url), ".mp4").value;
    var tail := "-" + NatStr(n) + (if mp4 then ".mp4" else ".jpg");
    assert GenericRecord(item, base, n).filename == base + tail;
    StartsWithAppend(base, tail);
  }

  /**
   * The fallback's type and extension can disagree: an item typed `video`
   * whose url lacks `.mp4` is a video record with a `.jpg` name.
   */
  lemma TypedVideoGetsJpgName(item: Json, base: string, n: nat)
    requires !Nullish(item) && Get(item, Type) == Str("video")
    requires Get(item, Url).Str? && Get(item, Url).s != "" && !Includes(Get(item, Url).s, ".mp4")
    ensures GenericRecord(item, base, n).kind == Video
    ensures EndsWith(GenericRecord(item, base, n).filename, ".jpg")
  {
    var f := GenericRecord(item, base, n).filename;
    assert f == base + "-" + NatStr(n) + ".jpg";
    assert f[|f| - 4..] == ".jpg";
  }

  /** A url containing `.mp4` makes a video with an `.mp4` name, whatever `type` says. */
  lemma Mp4UrlIsVideo(item: Json, base: string, n: nat)
    requires !Nullish(item) && Get(item, Url).Str? && Includes(Get(item, Url).s, ".mp4")
    ensures GenericRecord(item, base, n).kind == Video
    ensures EndsWith(GenericRecord(item, base, n).filename, ".mp4")
  {
    var f := GenericRecord(item, base, n).filename;
    assert f == base + "-" + NatStr(n) + ".mp4";
    assert f[|f| - 4..] == ".mp4";
  }

  /** `{ url }` or a bare url string: one record named `<base>.mp4` or `<base>.jpg`. */
  function SingleRecord(u: Json, base: string): (r: Option<seq<Media>>)
    requires Truthy(u)
    ensures r.Some? <==> u.Str? || u.Arr?
    ensures r.Some? ==> |r.value| == 1 && WellFormed(r.value[0], base) && r.value[0].url == u
  {
    match ValueIncludes(u, ".mp4")
    case None => None
    case Some(mp4) =>
      var name := base + "." + (if mp4 then "mp4" else "jpg");
      assert name == base + ("." + (if mp4 then "mp4" else "jpg"));
      Some([Media(u, if mp4 then Video else Image, Str("hd"), name, Missing, Missing, Missing)])
  }

  /**
   * The generic shapes, first match only: `{success, media: [...]}`,
   * `{url}`, `{data: {media}}`, a bare array, a string containing `http`.
   */
  function Fallback(data: Json, base: string): (r: Option<seq<Media>>)
    requires !Nullish(data)
  {
    var inner := Get(Get(data, Data), MediaList);
    if Truthy(Get(data, Success)) && Get(data, MediaList).Arr? then
      GenericList(Get(data, MediaList).elems, base, 1)
    else if Truthy(Get(data, Url)) then
      SingleRecord(Get(data, Url), base)
    else if Truthy(Get(data, Data)) && Truthy(inner) then
      match Iterate(inner)
      case None => None
      case Some(xs) => GenericList(xs, base, 1)
    else if data.Arr? then
      GenericList(data.elems, base, 1)
    else if data.Str? && Includes(data.s, "http") then
      SingleRecord(data, base)
    else
      Some([])
  }

  /** The fallback's records are well formed. */
  lemma FallbackWellFormed(data: Json, base: string)
    requires !Nullish(data)
    ensures Fallback(data, base).Some? ==> forall m :: m in Fallback(data, base).value ==> WellFormed(m, base)
  {
    var inner := Get(Get(data, Data), MediaList);
    if Truthy(Get(data, Success)) && Get(data, MediaList).Arr? {
      if GenericList(Get(data, MediaList).elems, base, 1).Some? {
        GenericListWellFormed(Get(data, MediaList).elems, base, 1);
      }
    } else if Truthy(Get(data, Url)) {
    } else if Truthy(Get(data, Data)) && Truthy(inner) {
      var xs := Iterate(inner);
      if xs.Some? && GenericList(xs.value, base, 1).Some? {
        GenericListWellFormed(xs.value, base, 1);
      }
    } else if data.Arr? {
      if GenericList(data.elems, base, 1).Some? {
        GenericListWellFormed(data.elems, base, 1);
      }
    }
  }

  /**
   * The post normaliser: the native ladder, then the generic shapes only
   * if the ladder produced nothing. Any thrown error, including reading a
   * property of a `null`/`undefined` body, yields `[]`.
   */
  function PostRecords(data: Json, shortcode: Option<string>, ts: nat): (r: seq<Media>)
    ensures forall m :: m in r ==> WellFormed(m, PostBase(shortcode, ts))
  {
    var base := PostBase(shortcode, ts);
    if Nullish(data) then []
    else
      PrimaryWellFormed(data, base);
      FallbackWellFormed(data, base);
      match Primary(data, base)
      case None => []
      case Some(p) =>
        if |p| > 0 then p
        else
          match Fallback(data, base)
          case None => []
          case Some(f) => f
  }

  /**
   * When the native ladder yields records, the generic shapes are never
   * consulted: any other body with the same native fields gives the same
   * records, whatever its `url`, `success`, `media` or `data`.
   */
  lemma NativeShapeFirst(data: Json, other: Json, shortcode: Option<string>, ts: nat)
    requires !Nullish(data) && !Nullish(other)
    requires Get(other, CarouselMedia) == Get(data, CarouselMedia)
    requires Get(other, ImageVersions2) == Get(data, ImageVersions2)
    requires Get(other, VideoVersions) == Get(data, VideoVersions)
    requires Primary(data, PostBase(shortcode, ts)).Some? && |Primary(data, PostBase(shortcode, ts)).value| > 0
    ensures PostRecords(other, shortcode, ts) == Primary(data, PostBase(shortcode, ts)).value
  {
    var base := PostBase(shortcode, ts);
    assert HasCandidates(other) == HasCandidates(data);
    assert Primary(other, base) == Primary(data, base);
  }

  /**
   * An item the generic loop throws on discards the whole post: records
   * pushed for earlier items are lost with it.
   */
  lemma ThrowingFallbackItemGivesEmpty(items: seq<Json>, shortcode: Option<string>, ts: nat)
    requires exists k :: 0 <= k < |items| && Throws(items[k])
    ensures PostRecords(Arr(items), shortcode, ts) == []
  {
    var base := PostBase(shortcode, ts);
    assert Primary(Arr(items), base) == Some([]);
    assert Fallback(Arr(items), base) == GenericList(items, base, 1);
  }
}

=== FILE: probe.dfy ===
/**
 * The ordered "first truthy path" probes the download route runs over
 * upstream bodies: the user id, the story list and the highlight list.
 * Each is a JavaScript `a || b || ...` chain of optional-chained reads.
 */
module Probe {
  import opened Base
  import opened Json

  /** `vals[k]` is the first truthy value of the chain. */
  ghost predicate FirstTruthyAt(vals: seq<Json>, k: int) {
    && 0 <= k < |vals|
    && Truthy(vals[k])
    && forall j :: 0 <= j < k ==> !Truthy(vals[j])
  }

  /**
   * `vals[0] || vals[1] || ... || vals[n-1]`: the first truthy operand, or
   * the last operand when none is truthy.
   */
  function OrChain(vals: seq<Json>): (r: Json)
    requires |vals| > 0
    ensures Truthy(r) <==> exists k :: 0 <= k < |vals| && Truthy(vals[k])
    ensures forall k :: FirstTruthyAt(vals, k) ==> r == vals[k]
    ensures !Truthy(r) ==> r == vals[|vals| - 1]
    decreases |vals|
  {
    if |vals| == 1 || Truthy(vals[0]) then
      vals[0]
    else
      var r := OrChain(vals[1..]);
      OrChainShift(vals);
      r
  }

  /** A first truthy position past a falsy head is the first truthy position of the tail. */
  lemma OrChainShift(vals: seq<Json>)
    requires |vals| > 1 && !Truthy(vals[0])
    ensures forall k :: FirstTruthyAt(vals, k) ==> FirstTruthyAt(vals[1..], k - 1)
    ensures (exists k :: 0 <= k < |vals| && Truthy(vals[k])) <==> (exists k :: 0 <= k < |vals| - 1 && Truthy(vals[1..][k]))
  {
    forall k | FirstTruthyAt(vals, k)
      ensures FirstTruthyAt(vals[1..], k - 1)
    {
      forall j | 0 <= j < k - 1
        ensures !Truthy(vals[1..][j])
      {
        assert vals[1..][j] == vals[j + 1];
      }
    }
    if k :| 0 <= k < |vals| && Truthy(vals[k]) {
      assert vals[1..][k - 1] == vals[k];
    }
    if k :| 0 <= k < |vals| - 1 && Truthy(vals[1..][k]) {
      assert vals[k + 1] == vals[1..][k];
    }
  }

  /** Reading an object path from anything but an object gives `undefined`. */
  lemma {:induction false} AtNonObject(v: Json, path: seq<Key>)
    requires |path| > 0 && !v.Obj?
    ensures At(v, path) == Missing
    decreases |path|
  {
    if |path| > 1 {
      AtNonObject(Missing, path[1..]);
    }
  }

  /** The values at each of `paths`, in order. */
  function Probe(body: Json, paths: seq<seq<Key>>): (r: seq<Json>)
    ensures |r| == |paths|
    ensures forall i :: 0 <= i < |paths| ==> r[i] == At(body, paths[i])
  {
    seq(|paths|, i requires 0 <= i < |paths| => At(body, paths[i]))
  }

  /** `user_id`, `id`, `data.user_id`, `data.id`, `result.user_id`, `result.id`, `UserID`, `data.UserID`, `result.UserID`. */
  const UserIdPaths: seq<seq<Key>> := [
    [UserId], [Id], [Data, UserId], [Data, Id], [Result, UserId], [Result, Id],
    [UserIdCaps], [Data, UserIdCaps], [Result, UserIdCaps]
  ]

  /**
   * The user id of a `user_id_by_username` body: the value at the first of
   * the nine paths that holds a truthy value; falsy when none does.
   */
  function UserIdOf(body: Json): (r: Json)
    ensures Truthy(r) <==> exists k :: 0 <= k < 9 && Truthy(At(body, UserIdPaths[k]))
    ensures forall k :: FirstTruthyAt(Probe(body, UserIdPaths), k) ==> r == At(body, UserIdPaths[k])
  {
    OrChain(Probe(body, UserIdPaths))
  }

  /** Every non-empty path reads `undefined` from a body that is not an object. */
  lemma ProbeNonObject(body: Json, paths: seq<seq<Key>>)
    requires !body.Obj?
    requires forall k :: 0 <= k < |paths| ==> |paths[k]| > 0
    ensures forall k :: 0 <= k < |paths| ==> !Truthy(At(body, paths[k]))
  {
    forall k | 0 <= k < |paths|
      ensures !Truthy(At(body, paths[k]))
    {
      AtNonObject(body, paths[k]);
    }
  }

  /** A non-object body never yields a user id. */
  lemma UserIdOfNonObject(body: Json)
    requires !body.Obj?
    ensures !Truthy(UserIdOf(body))
  {
    ProbeNonObject(body, UserIdPaths);
  }

  /** A truthy top-level `user_id` wins over every nested id. */
  lemma TopLevelUserIdWins(body: Json)
    requires Truthy(Get(body, UserId))
    ensures UserIdOf(body) == Get(body, UserId)
  {
    assert FirstTruthyAt(Probe(body, UserIdPaths), 0);
  }

  /** `{"data": {"user_id": 0}, "result": {"id": 42}}`: a falsy earlier path is skipped. */
  lemma FalsyPathSkipped()
    ensures UserIdOf(Obj(map["data" := Obj(map["user_id" := Num(0)]), "result" := Obj(map["id" := Num(42)])]))
      == Num(42)
  {
    var body := Obj(map["data" := Obj(map["user_id" := Num(0)]), "result" := Obj(map["id" := Num(42)])]);
    var vals := Probe(body, UserIdPaths);
    assert vals[0] == Missing && vals[1] == Missing && vals[2] == Num(0) && vals[3] == Missing && vals[4] == Missing;
    assert vals[5] == Num(42);
    assert FirstTruthyAt(vals, 5);
  }

  // ---------------------------------------------------------------------------
  // Stories

  /** `stories`, `data.stories`, `result.stories`, `data`, `result`. */
  const StoriesPaths: seq<seq<Key>> := [[Stories], [Data, Stories], [Result, Stories], [Data], [Result]]

  /**
   * The value the story loop iterates. The conditional binds looser than
   * the `||` chain, so the whole chain, closed by `Array.isArray(body)`, is
   * the condition and its value is discarded: the body itself is iterated
   * whenever any probe is truthy.
   */
  function StoriesValue(body: Json): Json {
    if Truthy(OrChain(Probe(body, StoriesPaths) + [Bool(body.Arr?)])) then body else Arr([])
  }

  /**
   * `for (const story of storiesData)`: an array body gives its elements; an
   * object body with any truthy probe is iterated as an object and throws
   * (`None`); anything else gives no stories.
   */
  function StoriesList(body: Json): (r: Option<seq<Json>>)
    ensures body.Arr? ==> r == Some(body.elems)
    ensures r.None? <==> body.Obj? && exists k :: 0 <= k < 5 && Truthy(At(body, StoriesPaths[k]))
    ensures !body.Arr? && r.Some? ==> r == Some([])
  {
    StoriesProbe(body);
    Iterate(StoriesValue(body))
  }

  /** The story condition is truthy iff the body is an array or some probe is truthy, and probes of non-objects are absent. */
  lemma StoriesProbe(body: Json)
    ensures Truthy(OrChain(Probe(body, StoriesPaths) + [Bool(body.Arr?)]))
      <==> body.Arr? || exists k :: 0 <= k < 5 && Truthy(At(body, StoriesPaths[k]))
    ensures !body.Obj? ==> forall k :: 0 <= k < 5 ==> !Truthy(At(body, StoriesPaths[k]))
  {
    var vals := Probe(body, StoriesPaths) + [Bool(body.Arr?)];
    assert forall k :: 0 <= k < 5 ==> vals[k] == At(body, StoriesPaths[k]);
    assert vals[5] == Bool(body.Arr?);
    if !body.Obj? {
      ProbeNonObject(body, StoriesPaths);
    }
  }

  // ---------------------------------------------------------------------------
  // Highlights

  /** `highlights`, `data.highlights`, `result.highlights`, `tray`, `data`, `result`. */
  const HighlightsPaths: seq<seq<Key>> := [
    [Highlights], [Data, Highlights], [Result, Highlights], [Tray], [Data], [Result]
  ]

  /**
   * The highlight list: the first truthy probe, else the body when it is an
   * array, else `[]`; a selected value that is not an array becomes `[]`.
   */
  function HighlightsList(body: Json): (r: seq<Json>)
    ensures forall k :: FirstTruthyAt(Probe(body, HighlightsPaths), k) ==>
              r == (var v := At(body, HighlightsPaths[k]); if v.Arr? then v.elems else [])
    ensures (forall k :: 0 <= k < 6 ==> !Truthy(At(body, HighlightsPaths[k]))) ==>
              r == (if body.Arr? then body.elems else [])
  {
    var probes := Probe(body, HighlightsPaths);
    var v := OrChain(probes + [if body.Arr? then body else Arr([])]);
    HighlightsProbe(body, probes);
    if v.Arr? then v.elems else []
  }

  /** Appending the closing operand keeps every first truthy probe, and a chain with no truthy probe ends on it. */
  lemma HighlightsProbe(body: Json, probes: seq<Json>)
    requires probes == Probe(body, HighlightsPaths)
    ensures var v := OrChain(probes + [if body.Arr? then body else Arr([])]);
            && (forall k :: FirstTruthyAt(probes, k) ==> v == probes[k])
            && ((forall k :: 0 <= k < 6 ==> !Truthy(At(body, HighlightsPaths[k]))) ==> v == (if body.Arr? then body else Arr([])))
  {
    var vals := probes + [if body.Arr? then body else Arr([])];
    forall k | FirstTruthyAt(probes, k)
      ensures FirstTruthyAt(vals, k)
    {
      assert vals[k] == probes[k];
      forall j | 0 <= j < k
        ensures !Truthy(vals[j])
      {
        assert vals[j] == probes[j];
      }
    }
    if forall k :: 0 <= k < 6 ==> !Truthy(At(body, HighlightsPaths[k])) {
      assert FirstTruthyAt(vals, 6);
    }
  }

  /** An array body with no probes (arrays have no such properties) is itself the highlight list. */
  lemma HighlightsOfArray(xs: seq<Json>)
    ensures HighlightsList(Arr(xs)) == xs
  {
    forall k | 0 <= k < 6
      ensures !Truthy(At(Arr(xs), HighlightsPaths[k]))
    {
      AtNonObject(Arr(xs), HighlightsPaths[k]);
    }
  }
}

=== FILE: proxy_route.dfy ===
/**
 * The media proxy: fetch a CDN url on the server and hand the bytes back
 * unchanged, with headers fit for display (GET) or for download (POST).
 * The upstream fetch is an oracle `fetch`.
 */
module ProxyRoute {
  import opened Base
  import opened Text
  import opened Json
  import opened Probe

  /** What the upstream fetch gives: a response, or a rejected promise. */
  datatype Fetched =
    | Response(status: int, body: seq<byte>, contentType: Option<string>)
    | NetworkError

  /** `response.ok`: a status in 200..299. */
  predicate Ok(f: Fetched)
    requires f.Response?
  {
    200 <= f.status <= 299
  }

  /** The `error` of a JSON error answer. */
  datatype ProxyError =
    | NoUrl
    | InvalidUrl
    | FetchFailed(upstream: int)
    | EmptyBody
    | Internal

  /** A JSON error with its status, or the fetched bytes with their headers (status 200). */
  datatype Answer =
    | ErrorAnswer(status: int, error: ProxyError)
    | Bytes(body: seq<byte>, headers: seq<(string, string)>)

  /** `searchParams.get(name)`: the value of the first parameter with that name. */
  function QueryGet(query: seq<(string, string)>, name: string): (r: Option<string>)
    ensures r.Some? <==> exists i :: 0 <= i < |query| && query[i].0 == name
    ensures r.Some? ==> exists i :: 0 <= i < |query| && query[i] == (name, r.value) && forall j :: 0 <= j < i ==> query[j].0 != name
    decreases |query|
  {
    if |query| == 0 then None
    else if query[0].0 == name then Some(query[0].1)
    else
      var r := QueryGet(query[1..], name);
      QueryShift(query, name, r);
      r
  }

  /** What holds of the tail of the query holds, one position on, of the query. */
  lemma QueryShift(query: seq<(string, string)>, name: string, r: Option<string>)
    requires |query| > 0 && query[0].0 != name
    requires r.Some? <==> exists i :: 0 <= i < |query| - 1 && query[1..][i].0 == name
    requires r.Some? ==> exists i :: 0 <= i < |query| - 1 && query[1..][i] == (name, r.value) && forall j :: 0 <= j < i ==> query[1..][j].0 != name
    ensures r.Some? <==> exists i :: 0 <= i < |query| && query[i].0 == name
    ensures r.Some? ==> exists i :: 0 <= i < |query| && query[i] == (name, r.value) && forall j :: 0 <= j < i ==> query[j].0 != name
  {
    if i :| 0 <= i < |query| && query[i].0 == name {
      assert query[1..][i - 1] == query[i];
    }
    if r.Some? {
      var i :| 0 <= i < |query| - 1 && query[1..][i] == (name, r.value) && forall j :: 0 <= j < i ==> query[1..][j].0 != name;
      assert query[i + 1] == query[1..][i];
      forall j | 0 <= j < i + 1
        ensures query[j].0 != name
      {
        if j > 0 {
          assert query[j] == query[1..][j - 1];
        }
      }
    }
  }

  /** `response.headers.get('content-type') || fallback` */
  function ContentType(f: Fetched, fallback: string): (r: string)
    requires f.Response?
    ensures f.contentType.Some? && f.contentType.value != "" ==> r == f.contentType.value
    ensures f.contentType.None? || f.contentType == Some("") ==> r == fallback
  {
    match f.contentType
    case Some(t) => if t != "" then t else fallback
    case None => fallback
  }

  /**
   * The steps both handlers share once the url is known to be a string
   * starting with `http`: a failed response is passed on with its status,
   * an empty body is refused, a rejected fetch is a 500.
   */
  function Relay(fetched: Fetched, headers: string -> seq<(string, string)>, fallback: string): (r: Answer)
    ensures r.Bytes? <==> fetched.Response? && Ok(fetched) && |fetched.body| > 0
    ensures r.Bytes? ==> r.body == fetched.body && r.headers == headers(ContentType(fetched, fallback))
    ensures fetched.NetworkError? ==> r == ErrorAnswer(500, Internal)
    ensures fetched.Response? && !Ok(fetched) ==> r == ErrorAnswer(fetched.status, FetchFailed(fetched.status))
    ensures fetched.Response? && Ok(fetched) && |fetched.body| == 0 ==> r == ErrorAnswer(400, EmptyBody)
  {
    match fetched
    case NetworkError => ErrorAnswer(500, Internal)
    case Response(status, body, _) =>
      if !Ok(fetched) then ErrorAnswer(status, FetchFailed(status))
      else if |body| == 0 then ErrorAnswer(400, EmptyBody)
      else Bytes(body, headers(ContentType(fetched, fallback)))
  }

  /** The display headers: the upstream type (default `image/jpeg`), an hour of public caching, any origin. */
  function DisplayHeaders(contentType: string): seq<(string, string)> {
    [("Content-Type", contentType), ("Cache-Control", "public, max-age=3600"), ("Access-Control-Allow-Origin", "*")]
  }

  /** `GET /api/proxy?url=...` */
  function ProxyGet(query: seq<(string, string)>, fetch: string -> Fetched): (r: Answer)
    ensures QueryGet(query, "url").None? || QueryGet(query, "url") == Some("") ==> r == ErrorAnswer(400, NoUrl)
    ensures (var u := QueryGet(query, "url"); u.Some? && u.value != "" && !StartsWith(u.value, "http")) ==> r == ErrorAnswer(400, InvalidUrl)
    ensures r.Bytes? <==>
              var u := QueryGet(query, "url");
              && u.Some? && StartsWith(u.value, "http")
              && fetch(u.value).Response? && Ok(fetch(u.value)) && |fetch(u.value).body| > 0
    ensures r.Bytes? ==>
              var f := fetch(QueryGet(query, "url").value);
              r.body == f.body && r.headers == DisplayHeaders(ContentType(f, "image/jpeg"))
    ensures (var u := QueryGet(query, "url"); u.Some? && StartsWith(u.value, "http")) ==>
              r == Relay(fetch(QueryGet(query, "url").value), DisplayHeaders, "image/jpeg")
  {
    match QueryGet(query, "url")
    case None => ErrorAnswer(400, NoUrl)
    case Some(u) =>
      if u == "" then ErrorAnswer(400, NoUrl)
      else if !StartsWith(u, "http") then ErrorAnswer(400, InvalidUrl)
      else Relay(fetch(u), DisplayHeaders, "image/jpeg")
  }

  /** `${filename || 'download'}` */
  function AttachmentName(filename: Json): string {
    Display(OrChain([filename, Str("download")]))
  }

  /** The download headers: the upstream type (default `application/octet-stream`), an attachment name, any origin, no caching. */
  function DownloadHeaders(filename: Json, contentType: string): seq<(string, string)> {
    [("Content-Type", contentType),
     ("Content-Disposition", Disposition(AttachmentName(filename))),
     ("Access-Control-Allow-Origin", "*"),
     ("Cache-Control", "no-cache")]
  }

  /**
   * `POST /api/proxy` with `{url, filename}`: a truthy `url` that is not a
   * string has no `startsWith`, which throws into the 500 answer, and so
   * does an attachment name the `Headers` object refuses.
   */
  function ProxyPost(url: Json, filename: Json, fetch: string -> Fetched): (r: Answer)
    ensures !Truthy(url) ==> r == ErrorAnswer(400, NoUrl)
    ensures Truthy(url) && !url.Str? ==> r == ErrorAnswer(500, Internal)
    ensures url.Str? && url.s != "" && !StartsWith(url.s, "http") ==> r == ErrorAnswer(400, InvalidUrl)
    ensures r.Bytes? <==>
              && url.Str? && StartsWith(url.s, "http")
              && fetch(url.s).Response? && Ok(fetch(url.s)) && |fetch(url.s).body| > 0
              && HeaderSafe(AttachmentName(filename))
    ensures (&& url.Str? && StartsWith(url.s, "http")
             && fetch(url.s).Response? && Ok(fetch(url.s)) && |fetch(url.s).body| > 0
             && !HeaderSafe(AttachmentName(filename))) ==> r == ErrorAnswer(500, Internal)
    ensures r.Bytes? ==>
              r.body == fetch(url.s).body
              && r.headers == DownloadHeaders(filename, ContentType(fetch(url.s), "application/octet-stream"))
    ensures (&& url.Str? && StartsWith(url.s, "http")
             && !(fetch(url.s).Response? && Ok(fetch(url.s)) && |fetch(url.s).body| > 0)) ==>
              r == Relay(fetch(url.s), (t: string) => DownloadHeaders(filename, t), "application/octet-stream")
  {
    if !Truthy(url) then ErrorAnswer(400, NoUrl)
    else if !url.Str? then ErrorAnswer(500, Internal)
    else if !StartsWith(url.s, "http") then ErrorAnswer(400, InvalidUrl)
    else
      var a := Relay(fetch(url.s), (t: string) => DownloadHeaders(filename, t), "application/octet-stream");
      if a.Bytes? && !HeaderSafe(Disposition(AttachmentName(filename))) then ErrorAnswer(500, Internal) else a
  }

  /** The proxy never answers with an empty body: an empty upstream body is a 400. */
  lemma NeverEmpty(query: seq<(string, string)>, url: Json, filename: Json, fetch: string -> Fetched)
    ensures ProxyGet(query, fetch).Bytes? ==> |ProxyGet(query, fetch).body| > 0
    ensures ProxyPost(url, filename, fetch).Bytes? ==> |ProxyPost(url, filename, fetch).body| > 0
  {
  }

  /**
   * Both handlers pass the same upstream bytes through for the same url;
   * POST succeeds exactly when GET does and its attachment name is a valid
   * header value.
   */
  lemma GetAndPostAgree(u: string, filename: Json, fetch: string -> Fetched)
    ensures ProxyPost(Str(u), filename, fetch).Bytes? <==> ProxyGet([("url", u)], fetch).Bytes? && HeaderSafe(AttachmentName(filename))
    ensures ProxyPost(Str(u), filename, fetch).Bytes? ==> ProxyGet([("url", u)], fetch).body == ProxyPost(Str(u), filename, fetch).body
  {
    assert QueryGet([("url", u)], "url") == Some(u);
  }

  /** A file name outside the byte range, such as one with an emoji, turns a download GET would serve into a 500. */
  lemma WideFilenameFailsPost(u: string, name: string, fetch: string -> Fetched)
    requires ProxyGet([("url", u)], fetch).Bytes?
    requires exists i :: 0 <= i < |name| && name[i] > '\U{FF}'
    ensures ProxyPost(Str(u), Str(name), fetch) == ErrorAnswer(500, Internal)
  {
    assert QueryGet([("url", u)], "url") == Some(u);
    assert name != "";
    assert OrChain([Str(name), Str("download")]) == Str(name) by {
      assert FirstTruthyAt([Str(name), Str("download")], 0);
    }
    assert !HeaderSafe(AttachmentName(Str(name)));
  }

  /** Without a file name the attachment name `download` is always accepted. */
  lemma DefaultNameIsSafe()
    ensures HeaderSafe(AttachmentName(Missing))
  {
    assert OrChain([Missing, Str("download")]) == Str("download") by {
      assert FirstTruthyAt([Missing, Str("download")], 1);
    }
    assert Display(Str("download")) == "download";
  }

  /** A repeated `url` parameter: the first one is fetched. */
  lemma FirstUrlParameterWins(a: string, b: string, fetch: string -> Fetched)
    requires a != "" && StartsWith(a, "http")
    ensures ProxyGet([("url", a), ("url", b)], fetch) == Relay(fetch(a), DisplayHeaders, "image/jpeg")
  {
    assert QueryGet([("url", a), ("url", b)], "url") == Some(a);
  }

  /** Without a file name the download is called `download`. */
  lemma DefaultAttachmentName(contentType: string)
    ensures DownloadHeaders(Missing, contentType)[1] == ("Content-Disposition", "attachment; filename=\"download\"")
  {
    assert OrChain([Missing, Str("download")]) == Str("download") by {
      assert FirstTruthyAt([Missing, Str("download")], 1);
    }
    assert Display(Str("download")) == "download";
    assert "attachment; filename=\"" + "download" + "\"" == "attachment; filename=\"download\"";
  }
}

=== FILE: text.dfy ===
/**
 * The JavaScript string primitives the routes and components rely on:
 * `startsWith`, `includes`, `trim`, `toLowerCase` (ASCII letters only),
 * decimal rendering of numbers in template literals, and `split`/`join`
 * with a one-character separator.
 */
module Text {

  /** JavaScript `s.startsWith(p)`. */
  predicate StartsWith(s: string, p: string) {
    |p| <= |s| && s[..|p|] == p
  }

  /** A string starts with any of its prefixes. */
  lemma StartsWithAppend(a: string, b: string)
    ensures StartsWith(a + b, a)
  {
    assert (a + b)[..|a|] == a;
  }

  /** A string starting with `a + b` starts with `a`. */
  lemma StartsWithShorter(s: string, a: string, b: string)
    requires StartsWith(s, a + b)
    ensures StartsWith(s, a)
  {
    assert s[..|a|] == s[..|a + b|][..|a|] == (a + b)[..|a|];
  }

  /** JavaScript `s.endsWith(p)`. */
  predicate EndsWith(s: string, p: string) {
    |p| <= |s| && s[|s| - |p|..] == p
  }

  /** `p` occurs in `s` starting at index `i`. */
  predicate OccursAt(s: string, p: string, i: int) {
    0 <= i && i + |p| <= |s| && s[i..i + |p|] == p
  }

  /** JavaScript `s.includes(p)`: tries the start positions from the left. */
  function Includes(s: string, p: string): (b: bool)
    ensures b <==> exists i :: OccursAt(s, p, i)
    decreases |s|
  {
    if StartsWith(s, p) then
      assert OccursAt(s, p, 0);
      true
    else if |s| == 0 then
      false
    else
      ShiftOccurrence(s, p);
      Includes(s[1..], p)
  }

  /** Dropping a first character that does not start an occurrence loses no occurrence. */
  lemma ShiftOccurrence(s: string, p: string)
    requires |s| > 0 && !StartsWith(s, p)
    ensures (exists i :: OccursAt(s, p, i)) <==> (exists i :: OccursAt(s[1..], p, i))
  {
    if i :| OccursAt(s, p, i) {
      assert i != 0;
      assert s[1..][i - 1..i - 1 + |p|] == s[i..i + |p|];
      assert OccursAt(s[1..], p, i - 1);
    }
    if i :| OccursAt(s[1..], p, i) {
      assert s[1..][i..i + |p|] == s[i + 1..i + 1 + |p|];
      assert OccursAt(s, p, i + 1);
    }
  }

  /** An occurrence inside a prefix is an occurrence in the whole string. */
  lemma IncludesInPrefix(s: string, t: string, p: string)
    requires Includes(s, p)
    ensures Includes(s + t, p)
  {
    var i :| OccursAt(s, p, i);
    assert (s + t)[i..i + |p|] == s[i..i + |p|];
    assert OccursAt(s + t, p, i);
  }

  /** An occurrence inside a suffix is an occurrence in the whole string. */
  lemma IncludesInSuffix(s: string, t: string, p: string)
    requires Includes(t, p)
    ensures Includes(s + t, p)
  {
    var i :| OccursAt(t, p, i);
    assert (s + t)[|s| + i..|s| + i + |p|] == t[i..i + |p|];
    assert OccursAt(s + t, p, |s| + i);
  }

  // ---------------------------------------------------------------------------
  // trim

  /** The characters `String.prototype.trim` strips: WhiteSpace and LineTerminator. */
  predicate IsSpace(c: char) {
    || c == '\t' || c == '\n' || c == '\U{B}' || c == '\U{C}' || c == '\r' || c == ' '
    || c == '\U{A0}' || c == '\U{1680}' || ('\U{2000}' <= c <= '\U{200A}')
    || c == '\U{2028}' || c == '\U{2029}' || c == '\U{202F}' || c == '\U{205F}'
    || c == '\U{3000}' || c == '\U{FEFF}'
  }

  /** Length of the whitespace run at the start of `s`. */
  function LeadingSpaces(s: string): (n: nat)
    ensures n <= |s|
    ensures forall k :: 0 <= k < n ==> IsSpace(s[k])
    ensures n < |s| ==> !IsSpace(s[n])
    decreases |s|
  {
    if |s| > 0 && IsSpace(s[0]) then 1 + LeadingSpaces(s[1..]) else 0
  }

  /** Length of the whitespace run at the end of `s`. */
  function TrailingSpaces(s: string): (n: nat)
    ensures n <= |s|
    ensures forall k :: |s| - n <= k < |s| ==> IsSpace(s[k])
    ensures n < |s| ==> !IsSpace(s[|s| - n - 1])
    decreases |s|
  {
    if |s| > 0 && IsSpace(s[|s| - 1]) then 1 + TrailingSpaces(s[..|s| - 1]) else 0
  }

  /**
   * `r` is the slice of `s` starting at `i` with nothing but whitespace
   * before and after it.
   */
  ghost predicate SpaceBounded(s: string, r: string, i: int) {
    && 0 <= i <= |s| - |r|
    && r == s[i..i + |r|]
    && (forall k :: 0 <= k < i ==> IsSpace(s[k]))
    && (forall k :: i + |r| <= k < |s| ==> IsSpace(s[k]))
  }

  /**
   * JavaScript `s.trim()`: the unique slice of `s` that neither starts nor
   * ends with whitespace and is surrounded by whitespace only.
   */
  function Trim(s: string): (r: string)
    ensures exists i :: SpaceBounded(s, r, i)
    ensures r != "" ==> !IsSpace(r[0]) && !IsSpace(r[|r| - 1])
    ensures r == "" <==> forall k :: 0 <= k < |s| ==> IsSpace(s[k])
  {
    var i := LeadingSpaces(s);
    var rest := s[i..];
    var r := rest[..|rest| - TrailingSpaces(rest)];
    assert r == s[i..i + |r|];
    assert forall k :: i + |r| <= k < |s| ==> s[k] == rest[k - i];
    assert SpaceBounded(s, r, i);
    r
  }

  /** Trimming twice is trimming once. */
  lemma TrimIdempotent(s: string)
    ensures Trim(Trim(s)) == Trim(s)
  {
    var r := Trim(s);
    var r2 := Trim(r);
    if r != "" {
      var i :| SpaceBounded(r, r2, i);
      assert !IsSpace(r[0]) && !IsSpace(r[|r| - 1]);
      assert i == 0 && i + |r2| == |r|;
    }
  }

  // ---------------------------------------------------------------------------
  // toLowerCase

  /** Maps an ASCII upper-case letter to its lower-case form; every other character is kept. */
  function LowerChar(c: char): char {
    if 'A' <= c <= 'Z' then (c as int + 32) as char else c
  }

  /** `s.toLowerCase()` for ASCII letters. */
  function Lower(s: string): (r: string)
    ensures |r| == |s|
    ensures forall k :: 0 <= k < |s| ==> r[k] == LowerChar(s[k])
  {
    seq(|s|, k requires 0 <= k < |s| => LowerChar(s[k]))
  }

  /** Lower-casing is idempotent, so a lower-cased search term is unchanged by a second fold. */
  lemma LowerIdempotent(s: string)
    ensures Lower(Lower(s)) == Lower(s)
  {
  }

  /** A case-sensitive match is also a case-insensitive match. */
  lemma LowerKeepsOccurrence(s: string, p: string)
    requires Includes(s, p)
    ensures Includes(Lower(s), Lower(p))
  {
    var i :| OccursAt(s, p, i);
    assert Lower(s)[i..i + |p|] == Lower(p);
    assert OccursAt(Lower(s), Lower(p), i);
  }

  // ---------------------------------------------------------------------------
  // Numbers in template literals

  predicate IsDigit(c: char) {
    '0' <= c <= '9'
  }

  function DigitChar(d: nat): (c: char)
    requires d < 10
    ensures IsDigit(c)
  {
    ('0' as int + d) as char
  }

  function DigitValue(c: char): (d: nat)
    requires IsDigit(c)
    ensures d < 10
  {
    c as int - '0' as int
  }

  /** Decimal rendering of a natural number, as `${n}` prints an integral number. */
  function NatStr(n: nat): (r: string)
    ensures |r| >= 1
    ensures forall k :: 0 <= k < |r| ==> IsDigit(r[k])
    ensures r[0] == '0' ==> n == 0
    decreases n
  {
    if n < 10 then [DigitChar(n)] else NatStr(n / 10) + [DigitChar(n % 10)]
  }

  /** Reads a string of decimal digits back as a number. */
  function ParseNat(s: string): nat
    requires forall k :: 0 <= k < |s| ==> IsDigit(s[k])
    decreases |s|
  {
    if |s| == 0 then 0 else 10 * ParseNat(s[..|s| - 1]) + DigitValue(s[|s| - 1])
  }

  /** The decimal rendering loses nothing: reading it back gives the number. */
  lemma {:induction false} NatStrRoundTrip(n: nat)
    ensures ParseNat(NatStr(n)) == n
    decreases n
  {
    if n >= 10 {
      NatStrRoundTrip(n / 10);
      var s := NatStr(n);
      assert s[..|s| - 1] == NatStr(n / 10);
      assert DigitValue(DigitChar(n % 10)) == n % 10;
    } else {
      assert DigitValue(DigitChar(n)) == n;
    }
  }

  /** Distinct numbers print differently. */
  lemma NatStrInjective(a: nat, b: nat)
    requires NatStr(a) == NatStr(b)
    ensures a == b
  {
    NatStrRoundTrip(a);
    NatStrRoundTrip(b);
  }

  /** Decimal rendering of an integer with a leading `-` when negative. */
  function IntStr(i: int): (r: string)
    ensures |r| >= 1
  {
    if i < 0 then "-" + NatStr(-i) else NatStr(i)
  }

  // ---------------------------------------------------------------------------
  // split / join with a one-character separator

  /** Index of the first `c` in `s`, or `|s|` when `c` does not occur. */
  function IndexOf(s: string, c: char): (k: nat)
    ensures k <= |s|
    ensures k < |s| ==> s[k] == c
    ensures forall j :: 0 <= j < k ==> s[j] != c
    decreases |s|
  {
    if |s| == 0 then 0 else if s[0] == c then 0 else 1 + IndexOf(s[1..], c)
  }

  /** JavaScript `s.split(c)` for a one-character separator `c`. */
  function Split(s: string, c: char): (parts: seq<string>)
    ensures |parts| >= 1
    ensures forall i :: 0 <= i < |parts| ==> c !in parts[i]
    decreases |s|
  {
    var k := IndexOf(s, c);
    if k == |s| then [s] else [s[..k]] + Split(s[k + 1..], c)
  }

  /** JavaScript `parts.join(c)`. */
  function Join(parts: seq<string>, c: char): string
    decreases |parts|
  {
    if |parts| == 0 then ""
    else if |parts| == 1 then parts[0]
    else parts[0] + [c] + Join(parts[1..], c)
  }

  /** Joining the pieces of a split gives back the original string. */
  lemma {:induction false} JoinSplit(s: string, c: char)
    ensures Join(Split(s, c), c) == s
    decreases |s|
  {
    var k := IndexOf(s, c);
    if k < |s| {
      JoinSplit(s[k + 1..], c);
      var rest := Split(s[k + 1..], c);
      assert Split(s, c) == [s[..k]] + rest;
      assert Split(s, c)[1..] == rest;
      assert s == s[..k] + [c] + s[k + 1..];
    }
  }

  /** Splitting a join of separator-free pieces gives back the pieces. */
  lemma {:induction false} SplitJoin(parts: seq<string>, c: char)
    requires |parts| >= 1
    requires forall i :: 0 <= i < |parts| ==> c !in parts[i]
    ensures Split(Join(parts, c), c) == parts
    decreases |parts|
  {
    if |parts| == 1 {
      assert IndexOf(parts[0], c) == |parts[0]|;
    } else {
      var a := parts[0];
      var b := Join(parts[1..], c);
      var s := a + [c] + b;
      assert Join(parts, c) == s;
      assert s[|a|] == c;
      assert IndexOf(s, c) == |a|;
      assert s[..|a|] == a;
      assert s[|a| + 1..] == b;
      SplitJoin(parts[1..], c);
      assert parts == [a] + parts[1..];
    }
  }

  // ---------------------------------------------------------------------------
  // Header values

  /**
   * A value the Fetch `Headers` object accepts once its ends carry no
   * whitespace: a byte string (no character above U+00FF) without NUL, CR
   * or LF. Any other value makes the response constructor throw a TypeError.
   */
  predicate HeaderSafe(s: string) {
    forall i :: 0 <= i < |s| ==> s[i] <= '\U{FF}' && s[i] != '\0' && s[i] != '\r' && s[i] != '\n'
  }

  /** A concatenation is a valid header value exactly when both parts are. */
  lemma HeaderSafeAppend(a: string, b: string)
    ensures HeaderSafe(a + b) <==> HeaderSafe(a) && HeaderSafe(b)
  {
    if HeaderSafe(a + b) {
      forall i | 0 <= i < |a|
        ensures a[i] <= '\U{FF}' && a[i] != '\0' && a[i] != '\r' && a[i] != '\n'
      {
        assert a[i] == (a + b)[i];
      }
      forall i | 0 <= i < |b|
        ensures b[i] <= '\U{FF}' && b[i] != '\0' && b[i] != '\r' && b[i] != '\n'
      {
        assert b[i] == (a + b)[|a| + i];
      }
    }
  }

  /** Decimal renderings are valid header values. */
  lemma NatStrHeaderSafe(n: nat)
    ensures HeaderSafe(NatStr(n))
  {
  }

  /** `attachment; filename="<name>"` */
  function Disposition(name: string): (r: string)
    ensures HeaderSafe(r) <==> HeaderSafe(name)
  {
    var r := "attachment; filename=\"" + name + "\"";
    HeaderSafeAppend("attachment; filename=\"", name);
    HeaderSafeAppend("attachment; filename=\"" + name, "\"");
    r
  }
}

=== FILE: translation.dfy ===
/**
 * `useAppTranslation`: the language is the first path segment, the
 * dictionary is chosen from it (English unless `zh` or `hi`), and `t(key)`
 * falls back to the key itself. The dictionaries' contents are parameters.
 */
module Translation {
  import opened Base
  import opened Text

  /** `pathname?.split("/")[1]`: `None` without a path or without a second field. */
  function PathLang(pathname: Option<string>): (r: Option<string>)
    ensures pathname.None? ==> r.None?
    ensures pathname.Some? ==> (r.Some? <==> |Split(pathname.value, '/')| > 1)
    ensures r.Some? ==> '/' !in r.value
  {
    match pathname
    case None => None
    case Some(p) =>
      var parts := Split(p, '/');
      if |parts| > 1 then Some(parts[1]) else None
  }

  /** A path `/<segment>` or `/<segment>/...` names its first segment. */
  lemma FirstSegment(segment: string, rest: string)
    requires '/' !in segment
    requires rest == "" || rest[0] == '/'
    ensures PathLang(Some("/" + segment + rest)) == Some(segment)
  {
    var p := "/" + segment + rest;
    assert IndexOf(p, '/') == 0;
    assert p[1..] == segment + rest;
    var q := segment + rest;
    assert forall k :: 0 <= k < |segment| ==> q[k] == segment[k];
    assert IndexOf(q, '/') == |segment| by {
      IndexOfAfterFree(segment, rest);
    }
    assert q[..|segment|] == segment;
    assert Split(q, '/')[0] == segment;
    assert Split(p, '/') == [p[..0]] + Split(q, '/');
  }

  /** The first separator of `a + b` lies in `b` when `a` holds none. */
  lemma {:induction false} IndexOfAfterFree(a: string, b: string)
    requires '/' !in a
    requires b == "" || b[0] == '/'
    ensures IndexOf(a + b, '/') == |a|
    decreases |a|
  {
    if |a| > 0 {
      assert (a + b)[1..] == a[1..] + b;
      IndexOfAfterFree(a[1..], b);
    } else {
      assert a + b == b;
    }
  }

  /** A path without any `/` has no language. */
  lemma NoSlashNoLang(p: string)
    requires '/' !in p
    ensures PathLang(Some(p)) == None
  {
    assert IndexOf(p, '/') == |p|;
  }

  /** The three locale dictionaries, as key-to-text maps. */
  datatype Dictionaries = Dictionaries(en: map<string, string>, zh: map<string, string>, hi: map<string, string>)

  /** `zh` and `hi` select their dictionaries; every other language, and none, selects English. */
  function DictionaryFor(ds: Dictionaries, lang: Option<string>): (d: map<string, string>)
    ensures lang == Some("zh") ==> d == ds.zh
    ensures lang == Some("hi") ==> d == ds.hi
    ensures lang != Some("zh") && lang != Some("hi") ==> d == ds.en
  {
    if lang == Some("zh") then ds.zh
    else if lang == Some("hi") then ds.hi
    else ds.en
  }

  /** `t(key)`: the dictionary's text when it is a non-empty string, else the key itself. */
  function Translate(dict: map<string, string>, key: string): (r: string)
    ensures key in dict && dict[key] != "" ==> r == dict[key]
    ensures key !in dict || dict[key] == "" ==> r == key
    ensures key != "" ==> r != ""
  {
    if key in dict && dict[key] != "" then dict[key] else key
  }

  /** What the hook returns: the lookup's dictionary and the raw language segment. */
  datatype Translator = Translator(dict: map<string, string>, lang: Option<string>)

  /** `useAppTranslation()` for the current path. */
  function UseAppTranslation(ds: Dictionaries, pathname: Option<string>): (r: Translator)
    ensures r.lang == PathLang(pathname)
    ensures r.dict == DictionaryFor(ds, PathLang(pathname))
  {
    var lang := PathLang(pathname);
    Translator(DictionaryFor(ds, lang), lang)
  }

  /** An unsupported language keeps its raw segment but reads the English texts. */
  lemma UnsupportedLanguage(ds: Dictionaries, rest: string, key: string)
    requires rest == "" || rest[0] == '/'
    ensures var tr := UseAppTranslation(ds, Some("/fr" + rest));
            tr.lang == Some("fr") && Translate(tr.dict, key) == Translate(ds.en, key)
  {
    FirstSegment("fr", rest);
    assert "/" + "fr" + rest == "/fr" + rest;
  }

  /** A Chinese path reads the Chinese texts, and a key missing there shows as the key. */
  lemma ChinesePath(ds: Dictionaries, rest: string, key: string)
    requires rest == "" || rest[0] == '/'
    requires key !in ds.zh
    ensures var tr := UseAppTranslation(ds, Some("/zh" + rest));
            tr.dict == ds.zh && Translate(tr.dict, key) == key
  {
    FirstSegment("zh", rest);
    assert "/" + "zh" + rest == "/zh" + rest;
  }
}

=== FILE: url_scan.dfy ===
/**
 * The URL scanners of the download route: `extractShortcode` and the story
 * and profile username extractors. Each regular expression the route uses is
 * a literal followed by greedy character-class runs, so it is written out as
 * a `Pattern` and matched by hand: at each start position from the left, the
 * literal must occur and each run is taken maximally.
 */
module UrlScan {
  import opened Base
  import opened Text

  /** The character classes the patterns use. */
  datatype Class =
    | Code             // [A-Za-z0-9_-]
    | NotSlash         // [^\/]
    | NotSlashOrQuery  // [^\/\?]

  predicate InClass(c: char, k: Class) {
    match k
    case Code => ('A' <= c <= 'Z') || ('a' <= c <= 'z') || ('0' <= c <= '9') || c == '_' || c == '-'
    case NotSlash => c != '/'
    case NotSlashOrQuery => c != '/' && c != '?'
  }

  /** Length of the longest run of class-`k` characters of `s` starting at `i`. */
  function RunLength(s: string, i: nat, k: Class): (n: nat)
    requires i <= |s|
    ensures i + n <= |s|
    ensures forall j :: i <= j < i + n ==> InClass(s[j], k)
    ensures i + n < |s| ==> !InClass(s[i + n], k)
    decreases |s| - i
  {
    if i < |s| && InClass(s[i], k) then 1 + RunLength(s, i + 1, k) else 0
  }

  /**
   * A literal `lead` followed by a captured non-empty run of `capture`
   * characters. `AfterSegment` patterns first skip a non-empty run of
   * non-slash characters and one slash between the literal and the capture.
   */
  datatype Pattern =
    | Direct(lead: string, capture: Class)
    | AfterSegment(lead: string, capture: Class)

  /** /instagram\.com\/p\/([A-Za-z0-9_-]+)/ */
  const PostPattern := Direct("instagram.com/p/", Code)
  /** /instagram\.com\/reel\/([A-Za-z0-9_-]+)/ */
  const ReelPattern := Direct("instagram.com/reel/", Code)
  /** /instagram\.com\/tv\/([A-Za-z0-9_-]+)/ */
  const TvPattern := Direct("instagram.com/tv/", Code)
  /** /instagram\.com\/stories\/[^\/]+\/([A-Za-z0-9_-]+)/ */
  const StoryItemPattern := AfterSegment("instagram.com/stories/", Code)
  /** /instagram\.com\/stories\/([^\/]+)/ */
  const StoryUserPattern := Direct("instagram.com/stories/", NotSlash)
  /** /instagram\.com\/([^\/\?]+)/ */
  const ProfileUserPattern := Direct("instagram.com/", NotSlashOrQuery)

  /** The shortcode patterns in the order `extractShortcode` tries them. */
  const ShortcodePatterns := [PostPattern, ReelPattern, TvPattern, StoryItemPattern]

  /** The maximal non-empty run of class-`k` characters at `j`, if there is one. */
  function RunCapture(s: string, j: nat, k: Class): (r: Option<string>)
    requires j <= |s|
    ensures r.Some? ==> |r.value| >= 1 && forall c :: c in r.value ==> InClass(c, k)
  {
    var n := RunLength(s, j, k);
    if n == 0 then None else Some(s[j..j + n])
  }

  /** Skips a non-empty run of non-slash characters and one slash, then takes the run at that point. */
  function SegmentCapture(s: string, j: nat, k: Class): (r: Option<string>)
    requires j <= |s|
    ensures r.Some? ==> |r.value| >= 1 && forall c :: c in r.value ==> InClass(c, k)
  {
    var m := RunLength(s, j, NotSlash);
    if m == 0 || j + m == |s| then None else RunCapture(s, j + m + 1, k)
  }

  /**
   * The capture of `p` for a match starting at `i`. Taking each run greedily
   * loses no match: every run is followed by a character outside its class,
   * so a shorter run could not be followed by what the pattern needs next.
   */
  function MatchAt(s: string, i: nat, p: Pattern): (r: Option<string>)
    requires i <= |s|
    ensures r.Some? ==> |r.value| >= 1 && forall c :: c in r.value ==> InClass(c, p.capture)
  {
    if !OccursAt(s, p.lead, i) then None
    else
      match p
      case Direct(_, k) => RunCapture(s, i + |p.lead|, k)
      case AfterSegment(_, k) => SegmentCapture(s, i + |p.lead|, k)
  }

  /** `cap` is a maximal non-empty run of class-`k` characters starting at `j`. */
  ghost predicate MaximalRun(s: string, j: int, cap: string, k: Class) {
    && 0 <= j
    && |cap| >= 1
    && OccursAt(s, cap, j)
    && (forall c :: c in cap ==> InClass(c, k))
    && (j + |cap| == |s| || !InClass(s[j + |cap|], k))
  }

  /** A non-empty run of non-slash characters of length `m` at `j`, followed by a slash. */
  ghost predicate SegmentAt(s: string, j: int, m: int) {
    && 0 <= j && 1 <= m && j + m < |s|
    && (forall t :: j <= t < j + m ==> s[t] != '/')
    && s[j + m] == '/'
  }

  /** Some `[^\/]+\/` segment starts at `j` and is followed by the maximal run `cap`. */
  ghost predicate CapturesAfterSegment(s: string, j: int, cap: string, k: Class) {
    exists m :: SegmentAt(s, j, m) && MaximalRun(s, j + m + 1, cap, k)
  }

  /** The regular expression `p`, read declaratively: it matches at `i` capturing `cap`. */
  ghost predicate Captures(s: string, i: int, p: Pattern, cap: string) {
    && OccursAt(s, p.lead, i)
    && match p
       case Direct(_, k) => MaximalRun(s, i + |p.lead|, cap, k)
       case AfterSegment(_, k) => CapturesAfterSegment(s, i + |p.lead|, cap, k)
  }

  /** A run of `n` class characters followed by the end or a non-class character has length `n`. */
  lemma {:induction false} RunLengthUnique(s: string, j: nat, k: Class, n: nat)
    requires j + n <= |s|
    requires forall t :: j <= t < j + n ==> InClass(s[t], k)
    requires j + n == |s| || !InClass(s[j + n], k)
    ensures RunLength(s, j, k) == n
    decreases n
  {
    if n > 0 {
      assert InClass(s[j], k);
      RunLengthUnique(s, j + 1, k, n - 1);
    }
  }

  /** A maximal run is exactly what `RunLength` measures. */
  lemma RunIsMaximal(s: string, j: nat, cap: string, k: Class)
    requires j <= |s|
    ensures MaximalRun(s, j, cap, k) <==> (RunLength(s, j, k) >= 1 && cap == s[j..j + RunLength(s, j, k)])
  {
    var n := RunLength(s, j, k);
    if MaximalRun(s, j, cap, k) {
      forall t | j <= t < j + |cap|
        ensures InClass(s[t], k)
      {
        assert s[t] == cap[t - j];
      }
      RunLengthUnique(s, j, k, |cap|);
    }
    if n >= 1 && cap == s[j..j + n] {
      forall c | c in cap
        ensures InClass(c, k)
      {
        var t :| 0 <= t < |cap| && cap[t] == c;
        assert s[j + t] == c;
      }
    }
  }

  /** The slash ending a segment is the first slash after its start. */
  lemma SegmentDeterminesRun(s: string, j: int, m: int)
    requires SegmentAt(s, j, m)
    ensures RunLength(s, j, NotSlash) == m
  {
    RunLengthUnique(s, j, NotSlash, m);
  }

  /** The greedy run capture is exactly the maximal run. */
  lemma RunCaptureIsMaximal(s: string, j: nat, k: Class, cap: string)
    requires j <= |s|
    ensures RunCapture(s, j, k) == Some(cap) <==> MaximalRun(s, j, cap, k)
  {
    RunIsMaximal(s, j, cap, k);
  }

  /** The segment skip takes exactly one `[^\/]+\/` segment, then the maximal run. */
  lemma SegmentCaptureIsCapture(s: string, j: nat, k: Class, cap: string)
    requires j <= |s|
    ensures SegmentCapture(s, j, k) == Some(cap) <==> CapturesAfterSegment(s, j, cap, k)
  {
    if SegmentCapture(s, j, k) == Some(cap) {
      SegmentCaptureSound(s, j, k, cap);
    }
    if CapturesAfterSegment(s, j, cap, k) {
      SegmentCaptureComplete(s, j, k, cap);
    }
  }

  /** What the segment skip captures is a capture of the pattern. */
  lemma SegmentCaptureSound(s: string, j: nat, k: Class, cap: string)
    requires j <= |s| && SegmentCapture(s, j, k) == Some(cap)
    ensures CapturesAfterSegment(s, j, cap, k)
  {
    var m := RunLength(s, j, NotSlash);
    assert SegmentAt(s, j, m);
    assert MaximalRun(s, j + m + 1, cap, k) by {
      RunCaptureIsMaximal(s, j + m + 1, k, cap);
    }
  }

  /** Every capture of the pattern is what the segment skip captures. */
  lemma SegmentCaptureComplete(s: string, j: nat, k: Class, cap: string)
    requires j <= |s| && CapturesAfterSegment(s, j, cap, k)
    ensures SegmentCapture(s, j, k) == Some(cap)
  {
    var m :| SegmentAt(s, j, m) && MaximalRun(s, j + m + 1, cap, k);
    assert RunLength(s, j, NotSlash) == m && m != 0 && j + m != |s| by {
      SegmentDeterminesRun(s, j, m);
    }
    assert RunCapture(s, j + m + 1, k) == Some(cap) by {
      RunCaptureIsMaximal(s, j + m + 1, k, cap);
    }
    SegmentCaptureFrom(s, j, k, cap, m);
  }

  /** The segment skip over a first segment of length `m`. */
  lemma SegmentCaptureFrom(s: string, j: nat, k: Class, cap: string, m: nat)
    requires j <= |s| && RunLength(s, j, NotSlash) == m && m != 0 && j + m < |s|
    requires RunCapture(s, j + m + 1, k) == Some(cap)
    ensures SegmentCapture(s, j, k) == Some(cap)
  {
  }

  /** The hand-written matcher agrees with the declarative reading of the pattern, in both directions. */
  lemma MatchAtIsCapture(s: string, i: nat, p: Pattern, cap: string)
    requires i <= |s|
    ensures MatchAt(s, i, p) == Some(cap) <==> Captures(s, i, p, cap)
  {
    if OccursAt(s, p.lead, i) {
      match p
      case Direct(lead, k) => DirectIsCapture(s, i, lead, k, cap);
      case AfterSegment(lead, k) => AfterSegmentIsCapture(s, i, lead, k, cap);
    }
  }

  /** `MatchAtIsCapture` for a literal followed directly by the captured run. */
  lemma DirectIsCapture(s: string, i: nat, lead: string, k: Class, cap: string)
    requires i <= |s| && OccursAt(s, lead, i)
    ensures MatchAt(s, i, Direct(lead, k)) == Some(cap) <==> Captures(s, i, Direct(lead, k), cap)
  {
    assert MatchAt(s, i, Direct(lead, k)) == RunCapture(s, i + |lead|, k);
    assert Captures(s, i, Direct(lead, k), cap) == MaximalRun(s, i + |lead|, cap, k);
    RunCaptureIsMaximal(s, i + |lead|, k, cap);
  }

  /** `MatchAtIsCapture` for a literal, a skipped segment, then the captured run. */
  lemma AfterSegmentIsCapture(s: string, i: nat, lead: string, k: Class, cap: string)
    requires i <= |s| && OccursAt(s, lead, i)
    ensures MatchAt(s, i, AfterSegment(lead, k)) == Some(cap) <==> Captures(s, i, AfterSegment(lead, k), cap)
  {
    assert MatchAt(s, i, AfterSegment(lead, k)) == SegmentCapture(s, i + |lead|, k);
    assert Captures(s, i, AfterSegment(lead, k), cap) == CapturesAfterSegment(s, i + |lead|, cap, k);
    SegmentCaptureIsCapture(s, i + |lead|, k, cap);
  }

  /** `i` is the first position from `from` on where `p` matches, and its capture is `r`. */
  ghost predicate FirstMatchAt(s: string, p: Pattern, from: nat, i: int, r: Option<string>) {
    && from <= i <= |s|
    && MatchAt(s, i, p) == r
    && forall j :: from <= j < i ==> MatchAt(s, j, p).None?
  }

  /** `s.match(p)` from position `from`: the capture of the leftmost match. */
  function Search(s: string, p: Pattern, from: nat): (r: Option<string>)
    requires from <= |s|
    ensures r.Some? ==> exists i :: FirstMatchAt(s, p, from, i, r)
    ensures r.None? ==> forall i :: from <= i <= |s| ==> MatchAt(s, i, p).None?
    decreases |s| - from
  {
    var here := MatchAt(s, from, p);
    if here.Some? || from == |s| then
      assert FirstMatchAt(s, p, from, from, here);
      here
    else
      var r := Search(s, p, from + 1);
      SearchStep(s, p, from, from + 1, r);
      r
  }

  /** A first match from `from + 1` is a first match from `from` when `from` itself does not match. */
  lemma SearchStep(s: string, p: Pattern, from: nat, next: nat, r: Option<string>)
    requires from < |s| && next == from + 1 && MatchAt(s, from, p).None?
    ensures (exists i :: FirstMatchAt(s, p, next, i, r)) ==> exists i :: FirstMatchAt(s, p, from, i, r)
  {
    if i :| FirstMatchAt(s, p, next, i, r) {
      forall j | from <= j < i
        ensures MatchAt(s, j, p).None?
      {
        if j != from {
          assert next <= j < i;
        }
      }
      assert FirstMatchAt(s, p, from, i, r);
    }
  }

  /** `p` captures `cap` at `i` and matches nowhere to the left of `i`. */
  ghost predicate LeftmostCapture(s: string, p: Pattern, i: int, cap: string) {
    && 0 <= i <= |s|
    && Captures(s, i, p, cap)
    && forall j, c :: 0 <= j < i ==> !Captures(s, j, p, c)
  }

  /** The search returns the capture of the leftmost match of the declarative pattern, and only that. */
  lemma SearchIsLeftmostCapture(s: string, p: Pattern, cap: string)
    ensures Search(s, p, 0) == Some(cap) <==> exists i :: LeftmostCapture(s, p, i, cap)
  {
    var r := Search(s, p, 0);
    if r == Some(cap) {
      var i :| FirstMatchAt(s, p, 0, i, r);
      MatchAtIsCapture(s, i, p, cap);
      forall j, c | 0 <= j < i
        ensures !Captures(s, j, p, c)
      {
        MatchAtIsCapture(s, j, p, c);
      }
      assert LeftmostCapture(s, p, i, cap);
    }
    if i :| LeftmostCapture(s, p, i, cap) {
      MatchAtIsCapture(s, i, p, cap);
      assert MatchAt(s, i, p) == Some(cap);
      var i0 :| FirstMatchAt(s, p, 0, i0, r);
      MatchAtIsCapture(s, i0, p, r.value);
      assert i0 == i;
    }
  }

  /** The search's result is a leftmost capture, and every leftmost capture is the search's result. */
  lemma SearchIsTheLeftmost(s: string, p: Pattern)
    ensures Search(s, p, 0).Some? ==> exists i :: LeftmostCapture(s, p, i, Search(s, p, 0).value)
    ensures forall i, cap :: LeftmostCapture(s, p, i, cap) ==> Search(s, p, 0) == Some(cap)
  {
    var r := Search(s, p, 0);
    if r.Some? {
      SearchIsLeftmostCapture(s, p, r.value);
    }
    forall i, cap | LeftmostCapture(s, p, i, cap)
      ensures Search(s, p, 0) == Some(cap)
    {
      SearchIsLeftmostCapture(s, p, cap);
    }
  }

  /**
   * In `pre + lead + cap + rest`, where `pre` lacks the literal's first
   * character and `cap` is a maximal class run, a direct pattern finds `cap`.
   */
  lemma DirectLink(pre: string, lead: string, cap: string, rest: string, k: Class)
    requires |lead| >= 1 && lead[0] !in pre
    requires |cap| >= 1 && forall c :: c in cap ==> InClass(c, k)
    requires rest == "" || !InClass(rest[0], k)
    ensures Search(pre + lead + cap + rest, Direct(lead, k), 0) == Some(cap)
  {
    var s := pre + lead + cap + rest;
    var p := Direct(lead, k);
    var j := |pre| + |lead|;
    assert MatchAt(s, |pre|, p) == Some(cap) by {
      assert s[|pre|..j] == lead;
      forall t | j <= t < j + |cap|
        ensures InClass(s[t], k)
      {
        assert s[t] == cap[t - j];
      }
      assert j + |cap| < |s| ==> s[j + |cap|] == rest[0];
      RunLengthUnique(s, j, k, |cap|);
      assert s[j..j + |cap|] == cap;
    }
    assert forall i :: 0 <= i < |pre| ==> MatchAt(s, i, p).None? by {
      forall i | 0 <= i < |pre|
        ensures MatchAt(s, i, p).None?
      {
        assert s[i] == pre[i];
      }
    }
    var r := Search(s, p, 0);
    var i0 :| FirstMatchAt(s, p, 0, i0, r);
    assert i0 == |pre|;
  }

  /** Every capture of a search uses only the pattern's capture class and is non-empty. */
  lemma SearchClass(s: string, p: Pattern)
    ensures var r := Search(s, p, 0);
            r.Some? ==> |r.value| >= 1 && forall c :: c in r.value ==> InClass(c, p.capture)
  {
    var r := Search(s, p, 0);
    if r.Some? {
      var i :| FirstMatchAt(s, p, 0, i, r);
    }
  }

  /** Tries the patterns in order and returns the first one's leftmost capture. */
  function FirstMatch(s: string, patterns: seq<Pattern>): (r: Option<string>)
    ensures r.Some? ==> exists k :: (0 <= k < |patterns| && Search(s, patterns[k], 0) == r
                                     && forall j :: 0 <= j < k ==> Search(s, patterns[j], 0).None?)
    ensures r.None? <==> forall k :: 0 <= k < |patterns| ==> Search(s, patterns[k], 0).None?
    decreases |patterns|
  {
    if |patterns| == 0 then None
    else
      var here := Search(s, patterns[0], 0);
      if here.Some? then here
      else
        var r := FirstMatch(s, patterns[1..]);
        assert forall k :: 1 <= k < |patterns| ==> patterns[k] == patterns[1..][k - 1];
        r
  }

  /**
   * `extractShortcode`: `/p/`, `/reel/`, `/tv/` and `/stories/<user>/` in that
   * order; the first pattern that matches anywhere wins, and a found
   * shortcode is a non-empty run of `[A-Za-z0-9_-]`.
   */
  function ExtractShortcode(url: string): (r: Option<string>)
    ensures r.Some? ==> |r.value| >= 1 && forall c :: c in r.value ==> InClass(c, Code)
    ensures r.Some? ==> exists k :: (0 <= k < 4 && Search(url, ShortcodePatterns[k], 0) == r
                                     && forall j :: 0 <= j < k ==> Search(url, ShortcodePatterns[j], 0).None?)
    ensures r.None? <==> forall k :: 0 <= k < 4 ==> Search(url, ShortcodePatterns[k], 0).None?
  {
    ShortcodeClass(url);
    FirstMatch(url, ShortcodePatterns)
  }

  /** Every shortcode pattern captures `[A-Za-z0-9_-]`, so whichever pattern wins, so does the result. */
  lemma ShortcodeClass(url: string)
    ensures var r := FirstMatch(url, ShortcodePatterns);
            r.Some? ==> |r.value| >= 1 && forall c :: c in r.value ==> InClass(c, Code)
  {
    FirstMatchClass(url, ShortcodePatterns, Code);
  }

  /** Patterns that all capture class `k` can only yield a run of class `k`, whichever of them wins. */
  lemma {:induction false} FirstMatchClass(s: string, patterns: seq<Pattern>, k: Class)
    requires forall i :: 0 <= i < |patterns| ==> patterns[i].capture == k
    ensures var r := FirstMatch(s, patterns);
            r.Some? ==> |r.value| >= 1 && forall c :: c in r.value ==> InClass(c, k)
    decreases |patterns|
  {
    if |patterns| > 0 {
      SearchClass(s, patterns[0]);
      FirstMatchClass(s, patterns[1..], k);
    }
  }

  /** A `/p/` match decides the shortcode, wherever the other patterns match. */
  lemma PostPatternWins(url: string)
    requires Search(url, PostPattern, 0).Some?
    ensures ExtractShortcode(url) == Search(url, PostPattern, 0)
  {
    assert ShortcodePatterns[0] == PostPattern;
  }

  /** A canonical post link yields the code between `/p/` and the next slash. */
  lemma CanonicalPostLink(code: string)
    requires |code| >= 1 && forall c :: c in code ==> InClass(c, Code)
    ensures ExtractShortcode("https://www.instagram.com/p/" + code + "/") == Some(code)
  {
    var s := "https://www.instagram.com/p/" + code + "/";
    assert s[12..28] == "instagram.com/p/";
    forall t | 28 <= t < 28 + |code|
      ensures InClass(s[t], Code)
    {
      assert s[t] == code[t - 28];
    }
    RunLengthUnique(s, 28, Code, |code|);
    assert s[28..28 + |code|] == code;
    assert MatchAt(s, 12, PostPattern) == Some(code);
    forall i | 0 <= i < 12
      ensures MatchAt(s, i, PostPattern).None?
    {
      assert s[i..i + 16][0] == s[i] != 'i';
    }
    var r := Search(s, PostPattern, 0);
    var i0 :| FirstMatchAt(s, PostPattern, 0, i0, r);
    assert i0 == 12;
    PostPatternWins(s);
  }

  /** `extractUsernameFromStoryUrl`: the segment after `instagram.com/stories/`. */
  function StoryUsername(url: string): (r: Option<string>)
    ensures r.Some? ==> |r.value| >= 1 && '/' !in r.value
    ensures r.Some? <==> exists i :: 0 <= i <= |url| && MatchAt(url, i, StoryUserPattern).Some?
    ensures r.Some? ==> exists i :: LeftmostCapture(url, StoryUserPattern, i, r.value)
    ensures forall i, cap :: LeftmostCapture(url, StoryUserPattern, i, cap) ==> r == Some(cap)
  {
    SearchClass(url, StoryUserPattern);
    SearchIsTheLeftmost(url, StoryUserPattern);
    Search(url, StoryUserPattern, 0)
  }

  /** `extractUsernameFromProfileUrl`: the first path segment after `instagram.com/`, up to a slash or `?`. */
  function ProfileUsername(url: string): (r: Option<string>)
    ensures r.Some? ==> |r.value| >= 1 && '/' !in r.value && '?' !in r.value
    ensures r.Some? <==> exists i :: 0 <= i <= |url| && MatchAt(url, i, ProfileUserPattern).Some?
    ensures r.Some? ==> exists i :: LeftmostCapture(url, ProfileUserPattern, i, r.value)
    ensures forall i, cap :: LeftmostCapture(url, ProfileUserPattern, i, cap) ==> r == Some(cap)
  {
    SearchClass(url, ProfileUserPattern);
    SearchIsTheLeftmost(url, ProfileUserPattern);
    Search(url, ProfileUserPattern, 0)
  }

  /** The scheme and `www.` in front of the host; the patterns start at the host. */
  const Www := "https://www."

  /** A story link `https://www.instagram.com/stories/<user>`, alone or followed by a slash, names `user`. */
  lemma StoryLinkUsername(user: string, rest: string)
    requires |user| >= 1 && '/' !in user
    requires rest == "" || rest[0] == '/'
    ensures StoryUsername(Www + "instagram.com/stories/" + user + rest) == Some(user)
  {
    assert forall c :: c in user ==> InClass(c, NotSlash);
    DirectLink(Www, "instagram.com/stories/", user, rest, NotSlash);
  }

  /** A profile link `https://www.instagram.com/<user>`, followed by nothing, a slash or a query, names `user`. */
  lemma ProfileLinkUsername(user: string, rest: string)
    requires |user| >= 1 && '/' !in user && '?' !in user
    requires rest == "" || rest[0] == '/' || rest[0] == '?'
    ensures ProfileUsername(Www + "instagram.com/" + user + rest) == Some(user)
  {
    assert forall c :: c in user ==> InClass(c, NotSlashOrQuery);
    DirectLink(Www, "instagram.com/", user, rest, NotSlashOrQuery);
  }

  /**
   * The profile pattern takes the first segment after the host, whatever it
   * is: on a story link it reads `stories`.
   */
  lemma ProfileOfStoryLink(user: string)
    ensures ProfileUsername(Www + "instagram.com/" + "stories" + ("/" + user)) == Some("stories")
  {
    ProfileLinkUsername("stories", "/" + user);
  }
}
